=== FILE: README.md ===
# Smart RSU emergency relay — Dafny model

This project models the message flow of a roadside-unit (RSU) emergency
system. A driver console (`CAR_01`) classifies a typed problem description
and sends a report. The report reaches a relay hub. The hub adds synthetic
tyre-pressure (TPMS) readings, a relay timestamp and its own hop, keeps the
latest state, and fans the report out to three places:

- the responder vehicle's console (`CAR_02`);
- a hospital listener;
- a command dashboard.

When the responder acknowledges, the hub computes an ETA against the stored
emergency. It records that ETA and sends it to the dashboard and back to the
driver ("help is coming"). Every 3 seconds the hub also sends a fresh TPMS
snapshot to the dashboard.

Each component is a set of pure functions. A handler takes a state and one
parsed datagram, and returns the next state and the datagrams it sends, in
order. The modules:

- `Wrappers`: the `Option` type.
- `Text`: lower-casing, stripping and substring search.
- `Geo`: the ETA estimators.
- `Telemetry`: the TPMS generator.
- `Wire`: the JSON messages as typed records. A `None` field means the key
  is absent.
- `Transport`: fire-and-forget UDP sending.
- `Relay`: the hub.
- `DriverConsole` and `ResponderConsole`: the two vehicle consoles.
- `Dashboard`: the command dashboard.
- `Scenario`: properties that span several components.

The outside world comes in as explicit inputs:

- clock readings are strings;
- the TPMS drift, jitter and rounding are one arbitrary `Deviation` per wheel;
- the haversine distance and Python's `round` are uninterpreted functions in
  a `Geo.GeoMath` value;
- the outcome of each socket send is a boolean.

With no stored emergency, an acknowledgment gets an ETA of 0 and a distance
of 0 (`Prototyping/relay_server.py:232-234`); `Relay.AckEstimate` models this.

## Model

| member | source | states |
|---|---|---|
| Text.ToLower | Prototyping/obu_pyqt/main.py:404 | Lower-casing keeps the length and maps each character on its own, A–Z to a–z |
| Text.ToLowerIdempotent | Prototyping/obu_pyqt/main.py:404 | Lower-casing twice is the same as lower-casing once |
| Text.TrimLeft | Prototyping/obu_pyqt/main.py:420 | The result is a suffix of the input; what was cut is all whitespace; the result does not start with whitespace |
| Text.TrimRight | Prototyping/obu_pyqt/main.py:420 | The result is a prefix of the input; what was cut is all whitespace; the result does not end with whitespace |
| Text.Strip | Prototyping/obu_pyqt/main.py:420-424 | `strip()` returns a slice of the input with whitespace on both cut ends and none at its own ends; it is empty exactly when the input is all whitespace, which is when the console refuses to send |
| Text.StripEmptyIffAllSpace | Prototyping/obu_pyqt/main.py:420-422 | Stripping leaves nothing exactly when the whole text is whitespace: the end of the kept part falls at or before its start just then |
| Text.StripIsTrimBoth | Prototyping/obu_pyqt/main.py:420 | `strip()` gives the same text as `rstrip()` applied after `lstrip()` |
| Geo.RelayEta | Prototyping/relay_server.py:96-102 | The hub's ETA is the sentinel 999 for a non-positive speed |
| Geo.ResponderEta | Prototyping/car2_obu/car2_obu.py:58-63 | The responder's estimate returns 999 with the unrounded distance for a non-positive speed; otherwise the hub's ETA and the distance rounded to 2 places |
| Geo.EtaMonotoneInDistance | Prototyping/relay_server.py:96-102 | At a fixed positive speed, a longer distance never gives a smaller ETA (given a monotone rounding) |
| Geo.EtaAntitoneInSpeed | Prototyping/relay_server.py:96-102 | For fixed coordinates and positive speeds, a higher speed never gives a larger ETA |
| Telemetry.Clamp | Prototyping/relay_server.py:69-70 | `max(lo, min(hi, x))` lies in [lo, hi], passes an in-range value through and pins others to the nearest bound |
| Telemetry.ClampIdempotent | Prototyping/relay_server.py:69-70 | Clamping an already clamped value changes nothing |
| Telemetry.StatusOf | Prototyping/relay_server.py:75 | A wheel is LOW exactly below 28 psi, HIGH exactly above 38 psi, OK exactly in between |
| Telemetry.ReadingFor | Prototyping/relay_server.py:57-76 | Every generated wheel reading is in range with the status its pressure implies; pressure and temperature are base plus deviation, each clamped to its range |
| Telemetry.Generate | Prototyping/relay_server.py:54-77 | Each call advances the tick by one and yields all four wheels, valid, with pressure and temperature each = clamp(base + deviation) |
| Telemetry.GeneratedPressureTracksRaw | Prototyping/relay_server.py:61-75 | An in-range raw pressure is kept as is; one below 25 becomes 25 and LOW, one above 42 becomes 42 and HIGH |
| Telemetry.GeneratedTemperatureTracksRaw | Prototyping/relay_server.py:63-70 | An in-range raw temperature is kept as is; one below 20 becomes 20, one above 90 becomes 90 |
| Wire.EncodeSnapshot | Prototyping/relay_server.py:72-76 | The JSON form of a snapshot has one key per wheel holding that wheel's pressure, temperature and status name |
| Transport.Transmit | Prototyping/relay_server.py:106-115 | Every send is attempted, in order, and the i-th attempt carries the i-th send and the network's verdict on it |
| Transport.Delivered | Prototyping/relay_server.py:106-115 | What reached the network is made only of sends whose attempt succeeded |
| Transport.FailureDoesNotAbort | Prototyping/relay_server.py:114-115 | A failed send is only logged: every later send is still attempted and delivered if the network accepts it |
| Transport.AllDelivered | Prototyping/relay_server.py:106-115 | When no attempt fails, exactly the sends go out, in order |
| Transport.DeliveredContains | Prototyping/relay_server.py:106-115 | Every successful attempt's send is among those that went out |
| Relay.AppendRelayHop | Prototyping/relay_server.py:150-153 | A trace gains "RELAY" at its end unless it already holds it; a packet without a trace gets none |
| Relay.AppendRelayHopIdempotent | Prototyping/relay_server.py:151-153 | Adding the relay hop twice is the same as adding it once |
| Relay.AppendRelayHopKeepsHopsUnique | Prototyping/relay_server.py:151-153 | A trace without repeated hops still has none after the relay hop is added |
| Relay.EmergencyOf | Prototyping/relay_server.py:158-167 | The stored emergency record holds the forwarded report's identity, description, position, timestamp and trace, plus the environment status, and none of the hub's telemetry |
| Relay.HospitalAlertOf | Prototyping/relay_server.py:174-185 | The hospital alert has type EMERGENCY_ALERT, agrees with the stored emergency on every shared field, links to its own position and carries the report's relay timestamp |
| Relay.Enrich | Prototyping/relay_server.py:146-153 | The forwarded report differs from the inbound one only in `tpms_data`, `relay_timestamp` and `hop_trace` |
| Relay.HandleReport | Prototyping/relay_server.py:119-203 | A report advances the TPMS tick, stores an emergency, leaves the ACK fields alone, and sends to the responder, the hospital and the dashboard in that order |
| Relay.ReportStoresTelemetry | Prototyping/relay_server.py:136-157 | The hub stores the report's `rsu_environment`, or an empty object, and the valid four-wheel snapshot that the generator builds from this call's deviation |
| Relay.ReportForwardsEnrichedPacket | Prototyping/relay_server.py:146-171 | The responder gets the report with the relay timestamp, the extended trace and the very snapshot the hub stored |
| Relay.ReportAlertsHospital | Prototyping/relay_server.py:174-187 | The hospital alert carries the report's identity, position, maps link, environment (default "Unknown") and the same relay timestamp |
| Relay.ReportNotifiesDashboard | Prototyping/relay_server.py:190-201 | The dashboard gets type EMERGENCY, the forwarded report, the stored sensor data and the same snapshot |
| Relay.ReportStoresEmergency | Prototyping/relay_server.py:158-167 | The stored emergency copies the report's identity, position and timestamp, with the forwarded trace and the environment status |
| Relay.LastReportWins | Prototyping/relay_server.py:156-167 | The latest state after two reports does not depend on the first report |
| Relay.ReprocessingAddsNoHop | Prototyping/relay_server.py:151-153 | Feeding a forwarded report back through the hub adds no second relay hop |
| Relay.AckTargetAsWritten | Prototyping/relay_server.py:226-231 | The lookup as written yields coordinates only when the stored emergency has both; otherwise the distance computation raises |
| Relay.AckAfterReportWithoutLatitudeRaises | Prototyping/relay_server.py:228-231 | After a report without `latitude`, the acknowledgment handler as written raises, while the intended default is 0 |
| Relay.AckTarget | Prototyping/relay_server.py:228-229 | The emergency's coordinates, each defaulting to 0 when the report had none |
| Relay.AckEstimate | Prototyping/relay_server.py:222-234 | (0, 0) with no stored emergency; otherwise the hub's ETA at 40 km/h and the distance rounded to 2 places, from the responder's position (default 0) to the emergency |
| Relay.HandleAck | Prototyping/relay_server.py:207-267 | A non-ACK changes nothing; an ACK sends CAR2_ACK to the dashboard and then HELP_COMING to the driver, with one ETA and distance on both and the ETA recorded; with an emergency stored, that pair is the estimate from the responder to the emergency (`AckEstimate`); helper id defaults to CAR_02; only the ACK fields of the state change |
| Relay.AckIgnoresAccidentVehicle | Prototyping/relay_server.py:219-241 | The hub does not check which vehicle an ACK names: its sends and stored ETA do not depend on `accident_vehicle` |
| Relay.OnMainDatagram | Prototyping/relay_server.py:322-332 | Unparseable datagrams are dropped; a datagram of type ACK is exactly the ACK handler's step, any other datagram exactly the report handler's step |
| Relay.OnAckDatagram | Prototyping/relay_server.py:309-317 | The ACK port hands every parsed datagram to the ACK handler, so unparseable and non-ACK datagrams change nothing; it never touches the emergency, the sensor data or the TPMS state |
| Relay.BroadcastTick | Prototyping/relay_server.py:271-284 | Each broadcast advances the tick, replaces only the stored snapshot with the one the generator builds from this tick's deviation, and sends it to the dashboard as TPMS_UPDATE |
| DriverConsole.Classify | Prototyping/obu_pyqt/main.py:403-416 | A specific label is given only when the lower-cased text mentions one of its keywords; General Breakdown only when it mentions none of any group |
| DriverConsole.ClassifyFollowsPriorityTable | Prototyping/obu_pyqt/main.py:403-416 | The classifier is the first match of the lower-cased text in the table tire > battery/not starting > smoke/engine > accident/crash/collision > fire, else General Breakdown |
| DriverConsole.ClassifyIgnoresCase | Prototyping/obu_pyqt/main.py:404 | Texts equal up to letter case get the same label |
| DriverConsole.ClassifyLowerCased | Prototyping/obu_pyqt/main.py:404 | Classifying lower-cased text gives the same label |
| DriverConsole.ClassifyPriorities | Prototyping/obu_pyqt/main.py:405-416 | Each of the six labels holds exactly when its keyword group is mentioned and no earlier group is: tire, then battery/not starting, then smoke/engine, then accident/crash/collision, then fire; General Breakdown exactly when none is |
| DriverConsole.EngineFireIsEngineProblem | Prototyping/obu_pyqt/main.py:409-414 | "engine fire", in any letter case, is an Engine Problem, because the engine check comes before the fire check |
| DriverConsole.BuildReport | Prototyping/obu_pyqt/main.py:419-437 | No packet exactly when the text is all whitespace; otherwise CAR_01's report of the stripped text, its label, the position, the clock and the trace [CAR_01], with no `type` |
| DriverConsole.SendEmergency | Prototyping/obu_pyqt/main.py:419-456 | A blank text only shows a warning dialog: the console is unchanged and nothing is sent; otherwise the report goes to the RSU at port 5005, and the header and notice show whether the send succeeded |
| DriverConsole.OnStatusReceived | Prototyping/obu_pyqt/main.py:316-328 | Only HELP_COMING changes the console: it shows the helper (default "Unknown"), the ETA and the distance, and sets the header to help on the way |
| ResponderConsole.FetchPosition | Prototyping/car2_obu/car2_obu.py:292-303 | The position is the looked-up fix, or the fallback 28.6139, 77.2090 when the lookup fails |
| ResponderConsole.OnMessageReceived | Prototyping/car2_obu/car2_obu.py:310-338 | A new alert replaces the pending one, clears the ETA line, enables the button and logs the sender and position with their defaults |
| ResponderConsole.LastAlertWins | Prototyping/car2_obu/car2_obu.py:319 | Of two alerts in a row only the second is pending, as if the first never came |
| ResponderConsole.AckPacket | Prototyping/car2_obu/car2_obu.py:344-360 | The ACK is type ACK from CAR_02 with the console's own position, the alert's vehicle, an ETA, a distance and a timestamp, and no other key |
| ResponderConsole.Acknowledge | Prototyping/car2_obu/car2_obu.py:340-387 | Nothing happens without a pending alert; otherwise the ACK goes to the hub's port 5015; on success the button is disabled, the status set to responding, the ETA shown and the send logged, and nothing else (the position included) changes; on failure only the log changes |
| ResponderConsole.AckCarriesEstimate | Prototyping/car2_obu/car2_obu.py:345-358 | The ACK's ETA and distance are the responder's estimate toward the alert's position (default 0) at 40 km/h |
| ResponderConsole.AcknowledgeAgainResends | Prototyping/car2_obu/car2_obu.py:341-369 | The handler itself does not guard against a second acknowledgment: it would send the same ACK again; only the disabled button prevents it |
| Dashboard.SetValue | Prototyping/dashboard/dashboard.py:97-99 | A gauge stores its value clamped into its range and changes nothing else |
| Dashboard.SetValueIdempotent | Prototyping/dashboard/dashboard.py:97-99 | Setting the same value twice, or re-setting the shown value, changes nothing |
| Dashboard.ArcFraction | Prototyping/dashboard/dashboard.py:117-118 | The arc fraction lies in [0, 1] and, on a range at least 1 wide, is the value's relative position in it |
| Dashboard.GaugeWarnings | Prototyping/dashboard/dashboard.py:121 | The temperature arc turns red exactly above 45, the air-quality arc exactly above 2000; humidity and light never do |
| Dashboard.ArcFractionEnds | Prototyping/dashboard/dashboard.py:117-118 | A gauge at its minimum shows an empty arc, one at its maximum a full arc |
| Dashboard.InitialDashboardValid | Prototyping/dashboard/dashboard.py:245-249 | The start-up dashboard has four tiles, gauges in range and the waiting line shown |
| Dashboard.Truncate | Prototyping/dashboard/dashboard.py:543-544 | Python's `int()` on a float truncates toward zero |
| Dashboard.UpdateSensors | Prototyping/dashboard/dashboard.py:531-545 | An empty reading changes nothing; temperature and humidity move only for a non-zero reading; air quality and light are set to the truncated reading or 0 |
| Dashboard.UpdateTpms | Prototyping/dashboard/dashboard.py:547-560 | Only wheels whose key is present are redrawn, with missing fields as 0, 0 and "OK"; others keep their tiles |
| Dashboard.UpdateTpmsShowsSnapshot | Prototyping/dashboard/dashboard.py:547-560 | After a snapshot arrives, every wheel tile shows exactly that wheel's reading |
| Dashboard.EnvDisplay | Prototyping/dashboard/dashboard.py:562-592 | A status mentioning "Fire" is a fire alert; otherwise one mentioning "Low Visibility" is low visibility; else normal |
| Dashboard.FireOutranksLowVisibility | Prototyping/dashboard/dashboard.py:563-572 | A status naming both is shown as a fire |
| Dashboard.FeedItemOf | Prototyping/dashboard/dashboard.py:599-605 | Each key of the report is read on its own: a present vehicle, issue, description, latitude, longitude, trace or timestamp is shown as is, an absent one as "Unknown", "Unknown", "", 0, 0, [] or "" |
| Dashboard.AddEmergencyFeed | Prototyping/dashboard/dashboard.py:594-660 | The new item, with its defaults, goes to the top of the feed; the waiting line goes away |
| Dashboard.FeedIsNewestFirst | Prototyping/dashboard/dashboard.py:660 | Of two emergencies, the later one heads the feed, above the earlier one |
| Dashboard.HandleEmergency | Prototyping/dashboard/dashboard.py:504-529 | The gauges and tiles take the message's sensor data and snapshot (absent as empty); the environment status (default "Unknown"), the feed and the hospital line (vehicle or "?") come from the message; the responder card is untouched |
| Dashboard.HandleCar2Ack | Prototyping/dashboard/dashboard.py:662-672 | The responder card shows the id (default CAR_02), the ETA and distance as sent (absent shown as "?") and the timestamp (default ""), and nothing else changes |
| Dashboard.OnOtherMessage | Prototyping/dashboard/dashboard.py:496-502 | A message of another type applies its sensor data as a sensor update and its snapshot as a tyre update, each only when the key is present, and changes nothing else |
| Dashboard.OnDataReceived | Prototyping/dashboard/dashboard.py:488-502 | EMERGENCY goes to the emergency handler, TPMS_UPDATE is a tyre update, CAR2_ACK goes to the ACK handler, other types to `OnOtherMessage`; only EMERGENCY touches feed and environment, only CAR2_ACK the responder card |
| Dashboard.UpdateSensorsKeepsValid | Prototyping/dashboard/dashboard.py:531-545 | A sensor update leaves every gauge within its range and the tiles untouched |
| Dashboard.UpdateTpmsKeepsValid | Prototyping/dashboard/dashboard.py:547-560 | A tyre update never adds or drops a wheel tile: only the four wheel keys are read |
| Dashboard.OnDataReceivedKeepsValid | Prototyping/dashboard/dashboard.py:488-560 | Every message keeps four tiles, gauges in range, and a non-empty feed once the waiting line is gone |
| Scenario.ReportFromDriverIsRelayed | Prototyping/relay_server.py:322-330 | A report without `type` and with trace [CAR_01] reaches the report handler, fans out to three sinks and is forwarded with trace [CAR_01, RELAY] |
| Scenario.DriverReportIsRelayed | Prototyping/obu_pyqt/main.py:429-437 | Every report the driver console builds, if the RSU forwards `hop_trace` unchanged, is routed as a report and forwarded with trace [CAR_01, RELAY] |
| Scenario.ResponderAckIsHandled | Prototyping/car2_obu/car2_obu.py:351-365 | The responder's ACK goes to port 5015, and both hub ports handle it as an acknowledgment with two sends |
| Scenario.DriverAndDashboardAgree | Prototyping/relay_server.py:244-265 | The driver's help card and the dashboard's responder card show the same helper, ETA and distance, and that ETA is the one the hub recorded |
| Scenario.DashboardShowsReportSnapshot | Prototyping/relay_server.py:190-201 | After a report, the dashboard's tyre tiles show exactly the snapshot the hub stored |
| Dashboard.UnknownStatusIsNormal | Prototyping/dashboard/dashboard.py:562-592 | The status "Unknown" mentions neither "Fire" nor "Low Visibility", so it shows as a normal environment |
| Scenario.DashboardShowsReportEnvironment | Prototyping/relay_server.py:137-201 | After a report, the dashboard holds the report's `environment_status`, or "Unknown" when it has none (relay_server.py:137, 195; dashboard.py:508, 517); a missing status therefore shows as normal |
| Scenario.DashboardShowsBroadcastSnapshot | Prototyping/relay_server.py:271-284 | After a broadcast, the dashboard's tyre tiles show exactly the broadcast snapshot, and nothing else changes |
| Scenario.AckMeasuresAgainstLastReport | Prototyping/relay_server.py:226-230 | With the correction listed under "## Findings": after two reports, an ACK's ETA is measured to the second report's position; when that report has both coordinates, the lookup as written finds the same position |
| Scenario.RelayConfirmsResponderEstimate | Prototyping/relay_server.py:226-261 | With the correction listed under "## Findings": when the responder acknowledges the forwarded alert, the hub sends back exactly the ETA and distance the responder computed; for a report with both coordinates the lookup as written finds the same target |
| Scenario.ReportSendsAreIndependent | Prototyping/relay_server.py:106-201 | Each of a report's three sends that the network accepts is delivered, whatever happened to the earlier ones: the hospital is alerted even when the send to the responder fails |

## Left out

- The haversine formula, `math.radians` and Python's `round` are floating-point numerics. They are uninterpreted functions (`Geo.GeoMath`). The lemmas that need more assume only non-negative distances and a monotone rounding.
- The TPMS drift (`math.sin` of the tick and `hash(wheel)`), the random jitter and the rounding to one decimal are replaced by an arbitrary per-wheel deviation. The tick is kept.
- Threads, the 3-second sleep and the relay's two listener loops are left out. So are the unsynchronised sharing of `latest_data` between threads and the `dashboard_queue`, which nothing reads. Handlers are modelled as atomic steps.
- `datetime.now()` and `time.strftime` are string inputs. The geocoder lookup is an optional fix. The driver console's location source (`get_location`) is an input.
- Qt widgets, painting, colours, sounds and the voice-recording and speech features of the driver console are left out. So is the closing of windows. Display text is reduced to the values it shows.
- JSON is modelled as typed records. A `None` field means an absent key. Left out:
  - JSON `null` values and values of the wrong type (for example, a `hop_trace` that is not a list);
  - a top-level value that is not an object, which makes `.get` raise;
  - bytes that are not UTF-8, which raise `UnicodeDecodeError` in `decode()`;
  - unknown keys.
  `Relay.OnMainDatagram` takes an already parsed datagram, or `None` when it does not parse.
- Text.ToLower: lower-cases ASCII letters only, and does not model Unicode case mapping.
- Text.Strip: treats as space the characters below 128 that Python's `str.isspace` accepts (tab, line feed, vertical tab, form feed, carriage return, U+001C to U+001F and the space), not Unicode whitespace beyond ASCII such as U+0085 or U+00A0.
- Dashboard.UpdateSensors: does not model the NaN checks on temperature and humidity, because the model has no floating point.
- ResponderConsole.OnMessageReceived: does not model the display-only fields (`raw_description` with its default "No description", `environment_status`, `hop_trace`). They affect nothing but labels.
- Dashboard.HandleEmergency: the live indicator's timed flash is left out.
- The ESP32 RSU firmware, which adds `rsu_environment` and `environment_status` to the report, is not part of this model. It appears only as the optional keys it adds.
- `hop_node.py`, `hospital_listener.py`, the `demo/` programs and `Prototyping/main.py` are not part of this model.

## Findings

| source | as written | input that shows it | evidently intended | confidence | as-written member | corrected member |
|---|---|---|---|---|---|---|
| Prototyping/relay_server.py:226-231 | The stored emergency always has a `latitude` key. It holds `None` when the report had none. So `emergency.get("latitude", 0)` returns `None`, and `haversine_distance` raises `TypeError`, which no handler catches. | A report without a `latitude` key, then an ACK | An absent coordinate counts as 0, as the `.get` default says | not executed | Relay.AckTargetAsWritten (shown by Relay.AckAfterReportWithoutLatitudeRaises) | Relay.AckTarget (used by Relay.AckEstimate and Relay.HandleAck) |

=== FILE: dashboard.dfy ===
/**
  The command dashboard's decision logic: gauge clamping, routing of
  incoming messages by `type`, the per-wheel and sensor updates with their
  defaults, the environment label, the emergency feed and the responder card.
 */
module Dashboard {
  import opened Wrappers
  import opened Wire
  import Text
  import Telemetry

  // ---------------------------------------------------------------- gauges

  /** A circular gauge; `warnAbove` is the optional red-arc threshold. */
  datatype Gauge = Gauge(minVal: real, maxVal: real, value: real, warnAbove: Option<real>)

  const TemperatureGauge := Gauge(0.0, 60.0, 0.0, Some(45.0))
  const HumidityGauge := Gauge(0.0, 100.0, 0.0, None)
  const AirQualityGauge := Gauge(0.0, 4095.0, 0.0, Some(2000.0))
  const LightGauge := Gauge(0.0, 4095.0, 0.0, None)

  predicate WellFormedGauge(g: Gauge)
  {
    g.minVal <= g.maxVal && g.minVal <= g.value <= g.maxVal
  }

  /** `set_value`: store the value clamped into the gauge's range. */
  function SetValue(g: Gauge, v: real): (r: Gauge)
    ensures r.(value := g.value) == g
    ensures g.minVal <= g.maxVal ==> WellFormedGauge(r)
    ensures g.minVal <= v <= g.maxVal ==> r.value == v
    ensures v < g.minVal ==> r.value == g.minVal
    ensures g.minVal <= g.maxVal && v > g.maxVal ==> r.value == g.maxVal
  {
    g.(value := Telemetry.Clamp(g.minVal, g.maxVal, v))
  }

  /** Setting the value a gauge already shows changes nothing. */
  lemma SetValueIdempotent(g: Gauge, v: real)
    requires g.minVal <= g.maxVal
    ensures SetValue(SetValue(g, v), v) == SetValue(g, v)
    ensures SetValue(SetValue(g, v), SetValue(g, v).value) == SetValue(g, v)
  {
  }

  /** The divisor of the arc fraction: the range width, but never below 1. */
  function ArcDivisor(g: Gauge): (d: real)
    ensures d >= 1.0
    ensures d >= g.maxVal - g.minVal
  {
    if 1.0 > g.maxVal - g.minVal then 1.0 else g.maxVal - g.minVal
  }

  /** The filled fraction of the value arc, clamped into [0, 1]. */
  function ArcFraction(g: Gauge): (pct: real)
    ensures 0.0 <= pct <= 1.0
    ensures g.minVal + 1.0 <= g.maxVal && WellFormedGauge(g) ==> pct == (g.value - g.minVal) / (g.maxVal - g.minVal)
  {
    Telemetry.Clamp(0.0, 1.0, (g.value - g.minVal) / ArcDivisor(g))
  }

  /** A gauge at its minimum shows an empty arc and one at its maximum a full arc. */
  lemma ArcFractionEnds(g: Gauge)
    requires g.minVal + 1.0 <= g.maxVal
    ensures ArcFraction(g.(value := g.minVal)) == 0.0
    ensures ArcFraction(g.(value := g.maxVal)) == 1.0
  {
    assert ArcDivisor(g.(value := g.minVal)) == g.maxVal - g.minVal;
    assert ArcDivisor(g.(value := g.maxVal)) == g.maxVal - g.minVal;
  }

  /** The arc turns red above a non-zero threshold (Python treats 0 as "no threshold"). */
  predicate ShowsWarning(g: Gauge)
  {
    g.warnAbove.Some? && g.warnAbove.value != 0.0 && g.value > g.warnAbove.value
  }

  /**
    Which readings turn the arcs red: temperature above 45, air quality above
    2000; humidity and light never, having no threshold.
   */
  lemma GaugeWarnings(v: real)
    ensures ShowsWarning(SetValue(TemperatureGauge, v)) <==> v > 45.0
    ensures ShowsWarning(SetValue(AirQualityGauge, v)) <==> v > 2000.0
    ensures !ShowsWarning(SetValue(HumidityGauge, v)) && !ShowsWarning(SetValue(LightGauge, v))
  {
  }

  // ---------------------------------------------------------------- state

  /** One wheel tile; `status` is whatever string arrived. */
  datatype WheelTile = WheelTile(pressure: real, temperature: real, status: string)

  const DefaultTile := WheelTile(0.0, 0.0, "OK")

  /** One item of the emergency feed, with its display defaults applied. */
  datatype FeedItem = FeedItem(
    vehicleId: string, issue: string, rawDescription: string,
    latitude: real, longitude: real, hopTrace: seq<string>, timestamp: string)

  /** The responder card; `None` in the numbers is displayed as "?". */
  datatype ResponderCard = ResponderCard(car2Id: string, etaMinutes: Option<real>, distanceKm: Option<real>, ackTimestamp: string)

  datatype EnvLevel = FireAlert | LowVisibility | NormalEnvironment

  datatype DashboardState = DashboardState(
    temperature: Gauge,
    humidity: Gauge,
    airQuality: Gauge,
    light: Gauge,
    tiles: map<Telemetry.Wheel, WheelTile>,
    envStatus: string,
    feed: seq<FeedItem>,
    waitingShown: bool,
    /** the vehicle named on the hospital line, once an emergency arrived */
    hospitalLine: Option<string>,
    responder: Option<ResponderCard>)

  const InitialDashboard := DashboardState(
    TemperatureGauge, HumidityGauge, AirQualityGauge, LightGauge,
    map[Telemetry.FL := DefaultTile, Telemetry.FR := DefaultTile,
        Telemetry.RL := DefaultTile, Telemetry.RR := DefaultTile],
    "Normal", [], true, None, None)

  /** The invariant every reachable dashboard keeps: four tiles and in-range gauges. */
  predicate Valid(d: DashboardState)
  {
    && d.tiles.Keys == {Telemetry.FL, Telemetry.FR, Telemetry.RL, Telemetry.RR}
    && WellFormedGauge(d.temperature) && WellFormedGauge(d.humidity)
    && WellFormedGauge(d.airQuality) && WellFormedGauge(d.light)
    && (!d.waitingShown ==> |d.feed| > 0)
  }

  lemma InitialDashboardValid()
    ensures Valid(InitialDashboard)
  {
  }

  // ---------------------------------------------------------------- sensors

  /** Python's `int(x)` on a float: truncation toward zero. */
  function Truncate(x: real): (n: int)
    ensures x >= 0.0 ==> n as real <= x < n as real + 1.0
    ensures x < 0.0 ==> n as real - 1.0 < x <= n as real
  {
    if x >= 0.0 then x.Floor else -((-x).Floor)
  }

  /** A reading that is present and non-zero (Python truthiness). */
  predicate Truthy(v: Option<real>)
  {
    v.Some? && v.value != 0.0
  }

  /**
    `update_sensors`: nothing for an empty object; temperature and humidity
    only when present and non-zero; air quality and light always, truncated
    to an integer, falling back to 0.
   */
  function UpdateSensors(d: DashboardState, sensor: EnvReading): (r: DashboardState)
    ensures sensor.IsEmpty() ==> r == d
    ensures r.(temperature := d.temperature, humidity := d.humidity, airQuality := d.airQuality, light := d.light) == d
    ensures !Truthy(sensor.temperature) ==> r.temperature == d.temperature
    ensures Truthy(sensor.temperature) ==> r.temperature == SetValue(d.temperature, sensor.temperature.value)
    ensures !Truthy(sensor.humidity) ==> r.humidity == d.humidity
    ensures Truthy(sensor.humidity) ==> r.humidity == SetValue(d.humidity, sensor.humidity.value)
    ensures !sensor.IsEmpty() && !Truthy(sensor.airQuality) ==> r.airQuality == SetValue(d.airQuality, 0.0)
    ensures !sensor.IsEmpty() && !Truthy(sensor.lightLevel) ==> r.light == SetValue(d.light, 0.0)
    ensures Truthy(sensor.airQuality) ==> r.airQuality == SetValue(d.airQuality, Truncate(sensor.airQuality.value) as real)
    ensures Truthy(sensor.lightLevel) ==> r.light == SetValue(d.light, Truncate(sensor.lightLevel.value) as real)
  {
    if sensor.IsEmpty() then d
    else
      var temperature := if Truthy(sensor.temperature) then SetValue(d.temperature, sensor.temperature.value) else d.temperature;
      var humidity := if Truthy(sensor.humidity) then SetValue(d.humidity, sensor.humidity.value) else d.humidity;
      var gas := if Truthy(sensor.airQuality) then Truncate(sensor.airQuality.value) else 0;
      var light := if Truthy(sensor.lightLevel) then Truncate(sensor.lightLevel.value) else 0;
      d.(temperature := temperature, humidity := humidity,
         airQuality := SetValue(d.airQuality, gas as real), light := SetValue(d.light, light as real))
  }

  // ---------------------------------------------------------------- tyres

  /** A wheel tile as `set_data` fills it: missing fields become 0, 0 and "OK". */
  function TileOf(f: WheelFields): WheelTile
  {
    WheelTile(f.pressurePsi.GetOr(0.0), f.temperatureC.GetOr(0.0), f.status.GetOr("OK"))
  }

  /**
    `update_tpms`: nothing for an empty object; otherwise each wheel whose
    key is present is redrawn and the others are left alone.
   */
  function UpdateTpms(d: DashboardState, tpms: TpmsWire): (r: DashboardState)
    ensures r.(tiles := d.tiles) == d
    ensures r.tiles.Keys == d.tiles.Keys + (set w | Telemetry.WheelKey(w) in tpms)
    ensures forall w :: w in d.tiles && Telemetry.WheelKey(w) !in tpms ==> r.tiles[w] == d.tiles[w]
    ensures forall w :: Telemetry.WheelKey(w) in tpms ==> r.tiles[w] == TileOf(tpms[Telemetry.WheelKey(w)])
  {
    Telemetry.AllWheelsListed();
    if |tpms| == 0 then d
    else
      var updated := map w | w in Telemetry.AllWheels && Telemetry.WheelKey(w) in tpms :: TileOf(tpms[Telemetry.WheelKey(w)]);
      d.(tiles := d.tiles + updated)
  }

  /** The dashboard shows exactly what the generator produced once its snapshot arrives. */
  lemma UpdateTpmsShowsSnapshot(d: DashboardState, s: Telemetry.Snapshot)
    requires Telemetry.ValidSnapshot(s)
    ensures forall w :: w in s ==>
              UpdateTpms(d, EncodeSnapshot(s)).tiles[w] ==
              WheelTile(s[w].pressurePsi, s[w].temperatureC, Telemetry.StatusName(s[w].status))
  {
    var t := EncodeSnapshot(s);
    forall w | w in s
      ensures Telemetry.WheelKey(w) in t
    {
    }
  }

  // ---------------------------------------------------------------- environment

  /** `update_env_display`: a fire mention outranks low visibility; anything else looks normal. */
  function EnvDisplay(status: string): (level: EnvLevel)
    ensures level == FireAlert <==> Text.Contains(status, "Fire")
    ensures level == LowVisibility <==> !Text.Contains(status, "Fire") && Text.Contains(status, "Low Visibility")
  {
    if Text.Contains(status, "Fire") then FireAlert
    else if Text.Contains(status, "Low Visibility") then LowVisibility
    else NormalEnvironment
  }

  /** The status "Unknown", shown when a report carries none, reads as normal. */
  lemma UnknownStatusIsNormal()
    ensures EnvDisplay("Unknown") == NormalEnvironment
  {
    Text.AbsentLetter("Unknown", "Fire", 0);
    Text.AbsentLetter("Unknown", "Low Visibility", 0);
  }

  /** A status naming both a fire and low visibility is shown as a fire. */
  lemma FireOutranksLowVisibility(status: string)
    requires Text.Contains(status, "Fire") && Text.Contains(status, "Low Visibility")
    ensures EnvDisplay(status) == FireAlert
  {
  }

  // ---------------------------------------------------------------- emergencies

  /** A feed item from a report, with the feed's display defaults. */
  function FeedItemOf(data: Packet): (item: FeedItem)
    ensures data.vehicleId.None? ==> item.vehicleId == "Unknown"
    ensures data.issue.None? ==> item.issue == "Unknown"
    ensures data.rawDescription.None? ==> item.rawDescription == ""
    ensures data.latitude.None? ==> item.latitude == 0.0
    ensures data.longitude.None? ==> item.longitude == 0.0
    ensures data.hopTrace.None? ==> item.hopTrace == []
    ensures data.timestamp.None? ==> item.timestamp == ""
    ensures data.vehicleId.Some? ==> item.vehicleId == data.vehicleId.value
    ensures data.issue.Some? ==> item.issue == data.issue.value
    ensures data.rawDescription.Some? ==> item.rawDescription == data.rawDescription.value
    ensures data.latitude.Some? ==> item.latitude == data.latitude.value
    ensures data.longitude.Some? ==> item.longitude == data.longitude.value
    ensures data.timestamp.Some? ==> item.timestamp == data.timestamp.value
    ensures data.hopTrace.Some? ==> item.hopTrace == data.hopTrace.value
  {
    FeedItem(data.vehicleId.GetOr("Unknown"), data.issue.GetOr("Unknown"), data.rawDescription.GetOr(""),
             data.latitude.GetOr(0.0), data.longitude.GetOr(0.0), data.hopTrace.GetOr([]), data.timestamp.GetOr(""))
  }

  /** `add_emergency_feed`: the newest item goes first; the waiting line goes away on the first item. */
  function AddEmergencyFeed(d: DashboardState, data: Packet): (r: DashboardState)
    ensures |r.feed| == |d.feed| + 1 && r.feed[0] == FeedItemOf(data) && r.feed[1..] == d.feed
    ensures !r.waitingShown
    ensures r.(feed := d.feed, waitingShown := d.waitingShown) == d
  {
    d.(feed := [FeedItemOf(data)] + d.feed, waitingShown := false)
  }

  /** Feed order is newest first: of two emergencies, the later one heads the feed. */
  lemma FeedIsNewestFirst(d: DashboardState, first: Packet, second: Packet)
    ensures var r := AddEmergencyFeed(AddEmergencyFeed(d, first), second);
            r.feed[0] == FeedItemOf(second) && r.feed[1] == FeedItemOf(first) && r.feed[2..] == d.feed
  {
  }

  /**
    `handle_emergency`: sensors, tyres, environment status, feed and the
    hospital line, each from the message's own keys with their defaults.
   */
  function HandleEmergency(d: DashboardState, packet: DashPacket): (r: DashboardState)
    ensures r.envStatus == packet.environmentStatus.GetOr("Unknown")
    ensures r.feed == [FeedItemOf(packet.data.GetOr(EmptyPacket))] + d.feed && !r.waitingShown
    ensures r.hospitalLine == Some(packet.data.GetOr(EmptyPacket).vehicleId.GetOr("?"))
    ensures r.responder == d.responder
    ensures var d2 := UpdateTpms(UpdateSensors(d, packet.sensorData.GetOr(EmptyEnv)), packet.tpmsData.GetOr(map[]));
            && r.tiles == d2.tiles
            && r.temperature == d2.temperature && r.humidity == d2.humidity
            && r.airQuality == d2.airQuality && r.light == d2.light
  {
    var data := packet.data.GetOr(EmptyPacket);
    var d1 := UpdateSensors(d, packet.sensorData.GetOr(EmptyEnv));
    var d2 := UpdateTpms(d1, packet.tpmsData.GetOr(map[]));
    var d3 := d2.(envStatus := packet.environmentStatus.GetOr("Unknown"));
    var d4 := AddEmergencyFeed(d3, data);
    d4.(hospitalLine := Some(data.vehicleId.GetOr("?")))
  }

  /** `handle_car2_ack`: the responder card, with "CAR_02", "?" and "" for missing fields. */
  function HandleCar2Ack(d: DashboardState, packet: DashPacket): (r: DashboardState)
    ensures r.(responder := d.responder) == d
    ensures r.responder.Some?
    ensures r.responder.value.car2Id == packet.car2Id.GetOr("CAR_02")
    ensures r.responder.value.etaMinutes == packet.etaMinutes && r.responder.value.distanceKm == packet.distanceKm
    ensures r.responder.value.ackTimestamp == packet.ackTimestamp.GetOr("")
  {
    d.(responder := Some(ResponderCard(packet.car2Id.GetOr("CAR_02"), packet.etaMinutes, packet.distanceKm,
                                       packet.ackTimestamp.GetOr(""))))
  }

  /** The three message types with a handler of their own. */
  predicate HandledKind(kind: Option<string>)
  {
    kind == Some("EMERGENCY") || kind == Some("TPMS_UPDATE") || kind == Some("CAR2_ACK")
  }

  /** Any other message: sensors and tyres are updated only for the keys it has. */
  function OnOtherMessage(d: DashboardState, packet: DashPacket): (r: DashboardState)
    ensures packet.sensorData.None? && packet.tpmsData.None? ==> r == d
    ensures packet.sensorData.Some? && packet.tpmsData.None? ==> r == UpdateSensors(d, packet.sensorData.value)
    ensures packet.sensorData.None? && packet.tpmsData.Some? ==> r == UpdateTpms(d, packet.tpmsData.value)
    ensures packet.tpmsData.None? ==> r.tiles == d.tiles
    ensures packet.tpmsData.Some? ==> r.tiles == UpdateTpms(d, packet.tpmsData.value).tiles
    ensures packet.sensorData.None? ==>
              && r.temperature == d.temperature && r.humidity == d.humidity
              && r.airQuality == d.airQuality && r.light == d.light
    ensures packet.sensorData.Some? ==>
              var d1 := UpdateSensors(d, packet.sensorData.value);
              && r.temperature == d1.temperature && r.humidity == d1.humidity
              && r.airQuality == d1.airQuality && r.light == d1.light
    ensures r.feed == d.feed && r.envStatus == d.envStatus && r.responder == d.responder
    ensures r.waitingShown == d.waitingShown && r.hospitalLine == d.hospitalLine
  {
    var d1 := if packet.sensorData.Some? then UpdateSensors(d, packet.sensorData.value) else d;
    if packet.tpmsData.Some? then UpdateTpms(d1, packet.tpmsData.value) else d1
  }

  /**
    `on_data_received`: EMERGENCY, TPMS_UPDATE and CAR2_ACK go to their
    handlers, anything else to `OnOtherMessage`.
   */
  function OnDataReceived(d: DashboardState, packet: DashPacket): (r: DashboardState)
    ensures packet.kind != Some("EMERGENCY") ==> r.feed == d.feed && r.envStatus == d.envStatus
    ensures packet.kind != Some("CAR2_ACK") ==> r.responder == d.responder
    ensures packet.kind == Some("EMERGENCY") ==> r == HandleEmergency(d, packet)
    ensures packet.kind == Some("TPMS_UPDATE") ==> r == UpdateTpms(d, packet.tpmsData.GetOr(map[]))
    ensures packet.kind == Some("CAR2_ACK") ==> r == HandleCar2Ack(d, packet)
    ensures !HandledKind(packet.kind) ==> r == OnOtherMessage(d, packet)
  {
    if packet.kind == Some("EMERGENCY") then HandleEmergency(d, packet)
    else if packet.kind == Some("TPMS_UPDATE") then UpdateTpms(d, packet.tpmsData.GetOr(map[]))
    else if packet.kind == Some("CAR2_ACK") then HandleCar2Ack(d, packet)
    else OnOtherMessage(d, packet)
  }

  /** A sensor update keeps the dashboard valid. */
  lemma UpdateSensorsKeepsValid(d: DashboardState, sensor: EnvReading)
    requires Valid(d)
    ensures Valid(UpdateSensors(d, sensor))
  {
  }

  /** A tyre update keeps exactly the four wheel tiles. */
  lemma UpdateTpmsKeepsValid(d: DashboardState, tpms: TpmsWire)
    requires Valid(d)
    ensures Valid(UpdateTpms(d, tpms))
  {
    var added := set w | Telemetry.WheelKey(w) in tpms;
    forall w | w in added
      ensures w in d.tiles.Keys
    {
      assert w == Telemetry.FL || w == Telemetry.FR || w == Telemetry.RL || w == Telemetry.RR;
    }
  }

  /** Every message keeps the dashboard valid: four tiles, in-range gauges, a non-empty feed once the waiting line is gone. */
  lemma OnDataReceivedKeepsValid(d: DashboardState, packet: DashPacket)
    requires Valid(d)
    ensures Valid(OnDataReceived(d, packet))
  {
    if packet.kind == Some("EMERGENCY") {
      var d1 := UpdateSensors(d, packet.sensorData.GetOr(EmptyEnv));
      UpdateSensorsKeepsValid(d, packet.sensorData.GetOr(EmptyEnv));
      UpdateTpmsKeepsValid(d1, packet.tpmsData.GetOr(map[]));
    } else if packet.kind == Some("TPMS_UPDATE") {
      UpdateTpmsKeepsValid(d, packet.tpmsData.GetOr(map[]));
    } else if packet.kind != Some("CAR2_ACK") {
      var d1 := if packet.sensorData.Some? then UpdateSensors(d, packet.sensorData.value) else d;
      if packet.sensorData.Some? {
        UpdateSensorsKeepsValid(d, packet.sensorData.value);
      }
      if packet.tpmsData.Some? {
        UpdateTpmsKeepsValid(d1, packet.tpmsData.value);
      }
    }
  }
}

=== FILE: driver_console.dfy ===
/**
  The driver console's decision logic: the keyword classifier that labels a
  free-text problem description, the construction of the report packet, and
  the filter on status messages coming back from the relay.
 */
module DriverConsole {
  import opened Wrappers
  import opened Text
  import opened Wire

  const VehicleId := "CAR_01"
  const HelpComingKind := "HELP_COMING"
  /** The roadside unit the console reports to; it forwards to the relay. */
  const RsuEndpoint := Endpoint("192.168.137.222", RelayListenPort)

  datatype Issue = FlatTire | BatteryFailure | EngineProblem | Accident | VehicleFire | GeneralBreakdown

  /** The label sent in the packet's `issue` key. */
  function Label(i: Issue): string
  {
    match i
    case FlatTire => "Flat Tire"
    case BatteryFailure => "Battery Failure"
    case EngineProblem => "Engine Problem"
    case Accident => "Accident"
    case VehicleFire => "Vehicle Fire"
    case GeneralBreakdown => "General Breakdown"
  }

  predicate MentionsAny(text: string, keywords: seq<string>)
  {
    exists k :: k in keywords && Contains(text, k)
  }

  /** The keywords that select each label; the fallback has none. */
  function Keywords(i: Issue): seq<string>
  {
    match i
    case FlatTire => ["tire"]
    case BatteryFailure => ["battery", "not starting"]
    case EngineProblem => ["smoke", "engine"]
    case Accident => ["accident", "crash", "collision"]
    case VehicleFire => ["fire"]
    case GeneralBreakdown => []
  }

  /**
    `classify_issue`: the first keyword group, in priority order, that the
    lower-cased text mentions. A specific label is only given when the text
    mentions one of its keywords, and the fallback only when it mentions none.
   */
  function Classify(text: string): (r: Issue)
    ensures r != GeneralBreakdown ==> MentionsAny(ToLower(text), Keywords(r))
    ensures r == GeneralBreakdown ==> forall i :: !MentionsAny(ToLower(text), Keywords(i))
  {
    var t := ToLower(text);
    MentionsAnySingle(t, "tire");
    MentionsAnyPair(t, "battery", "not starting");
    MentionsAnyPair(t, "smoke", "engine");
    MentionsAnyTriple(t, "accident", "crash", "collision");
    MentionsAnySingle(t, "fire");
    if Contains(t, "tire") then FlatTire
    else if Contains(t, "battery") || Contains(t, "not starting") then BatteryFailure
    else if Contains(t, "smoke") || Contains(t, "engine") then EngineProblem
    else if Contains(t, "accident") || Contains(t, "crash") || Contains(t, "collision") then Accident
    else if Contains(t, "fire") then VehicleFire
    else GeneralBreakdown
  }

  /** The classifier's keyword groups, highest priority first. */
  const Rules: seq<(Issue, seq<string>)> := [
    (FlatTire, Keywords(FlatTire)),
    (BatteryFailure, Keywords(BatteryFailure)),
    (EngineProblem, Keywords(EngineProblem)),
    (Accident, Keywords(Accident)),
    (VehicleFire, Keywords(VehicleFire))
  ]

  /** Reference classifier: scan a priority table, falling back to a general breakdown. */
  function FirstMatch(rules: seq<(Issue, seq<string>)>, text: string): Issue
  {
    if |rules| == 0 then GeneralBreakdown
    else if MentionsAny(text, rules[0].1) then rules[0].0
    else FirstMatch(rules[1..], text)
  }

  lemma MentionsAnyPair(text: string, a: string, b: string)
    ensures MentionsAny(text, [a, b]) <==> Contains(text, a) || Contains(text, b)
  {
    if Contains(text, a) {
      assert a in [a, b];
    }
    if Contains(text, b) {
      assert b in [a, b];
    }
  }

  lemma MentionsAnyTriple(text: string, a: string, b: string, c: string)
    ensures MentionsAny(text, [a, b, c]) <==> Contains(text, a) || Contains(text, b) || Contains(text, c)
  {
    if Contains(text, a) {
      assert a in [a, b, c];
    }
    if Contains(text, b) {
      assert b in [a, b, c];
    }
    if Contains(text, c) {
      assert c in [a, b, c];
    }
  }

  lemma MentionsAnySingle(text: string, a: string)
    ensures MentionsAny(text, [a]) <==> Contains(text, a)
  {
    if Contains(text, a) {
      assert a in [a];
    }
  }

  /** The if-chain classifier is the priority-table classifier applied to the lower-cased text. */
  lemma {:induction false} ClassifyFollowsPriorityTable(text: string)
    ensures Classify(text) == FirstMatch(Rules, ToLower(text))
  {
    var t := ToLower(text);
    MentionsAnySingle(t, "tire");
    MentionsAnyPair(t, "battery", "not starting");
    MentionsAnyPair(t, "smoke", "engine");
    MentionsAnyTriple(t, "accident", "crash", "collision");
    MentionsAnySingle(t, "fire");
    var rules := Rules;
    assert FirstMatch(rules, t) == if MentionsAny(t, ["tire"]) then FlatTire else FirstMatch(rules[1..], t);
    rules := rules[1..];
    assert FirstMatch(rules, t) == if MentionsAny(t, ["battery", "not starting"]) then BatteryFailure else FirstMatch(rules[1..], t);
    rules := rules[1..];
    assert FirstMatch(rules, t) == if MentionsAny(t, ["smoke", "engine"]) then EngineProblem else FirstMatch(rules[1..], t);
    rules := rules[1..];
    assert FirstMatch(rules, t) == if MentionsAny(t, ["accident", "crash", "collision"]) then Accident else FirstMatch(rules[1..], t);
    rules := rules[1..];
    assert FirstMatch(rules, t) == if MentionsAny(t, ["fire"]) then VehicleFire else FirstMatch(rules[1..], t);
    rules := rules[1..];
    assert rules == [];
  }

  /** Matching ignores letter case: texts equal up to case get the same label. */
  lemma ClassifyIgnoresCase(a: string, b: string)
    requires ToLower(a) == ToLower(b)
    ensures Classify(a) == Classify(b)
  {
  }

  /** Classifying already lower-cased text changes nothing. */
  lemma ClassifyLowerCased(text: string)
    ensures Classify(ToLower(text)) == Classify(text)
  {
    ToLowerIdempotent(text);
  }

  /**
    Each label, characterised by the keywords the text does and does not
    mention: a group wins exactly when it is mentioned and no earlier group is.
   */
  lemma ClassifyPriorities(text: string)
    ensures var t := ToLower(text);
            var tire := Contains(t, "tire");
            var battery := Contains(t, "battery") || Contains(t, "not starting");
            var engine := Contains(t, "smoke") || Contains(t, "engine");
            var accident := Contains(t, "accident") || Contains(t, "crash") || Contains(t, "collision");
            var fire := Contains(t, "fire");
            && (Classify(text) == FlatTire <==> tire)
            && (Classify(text) == BatteryFailure <==> !tire && battery)
            && (Classify(text) == EngineProblem <==> !tire && !battery && engine)
            && (Classify(text) == Accident <==> !tire && !battery && !engine && accident)
            && (Classify(text) == VehicleFire <==> !tire && !battery && !engine && !accident && fire)
            && (Classify(text) == GeneralBreakdown <==> !tire && !battery && !engine && !accident && !fire)
  {
  }

  /** The keywords "engine fire" does and does not mention, up to the engine check. */
  lemma EngineFireKeywords(t: string)
    requires t == "engine fire"
    ensures Contains(t, "engine")
    ensures !Contains(t, "tire") && !Contains(t, "battery") && !Contains(t, "not starting")
  {
    ContainsWitness(t, "engine", 0);
    AbsentLetter(t, "tire", 0);
    AbsentLetter(t, "battery", 0);
    AbsentLetter(t, "not starting", 4);
  }

  /** "engine fire", in any letter case, is an engine problem: the engine check comes before the fire check. */
  lemma EngineFireIsEngineProblem(text: string)
    requires ToLower(text) == "engine fire"
    ensures Classify(text) == EngineProblem
  {
    EngineFireKeywords(ToLower(text));
  }

  // ---------------------------------------------------------------- sending

  /**
    The packet `send_emergency` builds, or `None` when the stripped text is
    empty (the console then only warns). The location and clock are inputs.
   */
  function BuildReport(text: string, latitude: real, longitude: real, clock: string): (r: Option<Packet>)
    ensures r.None? <==> AllSpace(text)
    ensures r.Some? ==>
              && r.value.kind.None?
              && r.value.vehicleId == Some(VehicleId)
              && r.value.rawDescription == Some(Strip(text))
              && r.value.issue == Some(Label(Classify(Strip(text))))
              && r.value.hopTrace == Some([VehicleId])
              && r.value.latitude == Some(latitude) && r.value.longitude == Some(longitude)
              && r.value.timestamp == Some(clock)
              && r.value.tpmsData.None? && r.value.relayTimestamp.None?
  {
    var issueText := Strip(text);
    if |issueText| == 0 then None
    else Some(EmptyPacket.(vehicleId := Some(VehicleId),
                           issue := Some(Label(Classify(issueText))),
                           rawDescription := Some(issueText),
                           latitude := Some(latitude),
                           longitude := Some(longitude),
                           timestamp := Some(clock),
                           hopTrace := Some([VehicleId])))
  }

  // ---------------------------------------------------------------- console state

  datatype Header = Ready | EmergencySent | HelpOnTheWay

  datatype Notice = ReadyToSend | SentSuccessfully | SendFailed

  /** What the help card shows; `None` in the numbers is displayed as "?". */
  datatype HelpCard = HelpCard(helperId: string, etaMinutes: Option<real>, distanceKm: Option<real>)

  datatype ConsoleState = ConsoleState(header: Header, notice: Notice, help: Option<HelpCard>)

  const InitialConsole := ConsoleState(Ready, ReadyToSend, None)

  /**
    Pressing "send": a blank description only raises a warning dialog, which
    leaves the console as it was, and nothing goes out; otherwise the
    report is sent to the roadside unit and `sent` says whether the socket
    accepted it.
   */
  function SendEmergency(c: ConsoleState, text: string, latitude: real, longitude: real, clock: string, sent: bool)
    : (r: (ConsoleState, Option<Send>))
    ensures AllSpace(text) ==> r == (c, None)
    ensures !AllSpace(text) ==>
              && r.1.Some? && r.1.value.to == RsuEndpoint
              && r.1.value.msg == ToRelay(BuildReport(text, latitude, longitude, clock).value)
              && r.0.help == c.help
              && (sent ==> r.0.header == EmergencySent && r.0.notice == SentSuccessfully)
              && (!sent ==> r.0.header == c.header && r.0.notice == SendFailed)
  {
    match BuildReport(text, latitude, longitude, clock)
    case None => (c, None)
    case Some(p) =>
      var next := if sent then c.(header := EmergencySent, notice := SentSuccessfully)
                  else c.(notice := SendFailed);
      (next, Some(Send(RsuEndpoint, ToRelay(p))))
  }

  /** `on_status_received`: only a HELP_COMING message changes the console. */
  function OnStatusReceived(c: ConsoleState, packet: StatusPacket): (r: ConsoleState)
    ensures packet.kind != Some(HelpComingKind) ==> r == c
    ensures packet.kind == Some(HelpComingKind) ==>
              && r.header == HelpOnTheWay && r.notice == c.notice
              && r.help == Some(HelpCard(packet.helperId.GetOr("Unknown"), packet.etaMinutes, packet.distanceKm))
  {
    if packet.kind == Some(HelpComingKind) then
      c.(header := HelpOnTheWay,
         help := Some(HelpCard(packet.helperId.GetOr("Unknown"), packet.etaMinutes, packet.distanceKm)))
    else c
  }
}

=== FILE: geo.dfy ===
/**
  Distance and ETA estimation. The great-circle (haversine) distance and
  Python's `round(x, n)` are floating-point numerics outside this model: they
  are carried as uninterpreted functions in a `GeoMath` value, so every proof
  uses only that the same call gives the same value, plus the explicit
  assumptions of `WellBehaved` where a lemma needs them.
 */
module Geo {

  /** Average speed, in km/h, that both ETA estimators use by default. */
  const DefaultSpeedKmh: real := 40.0

  /** The "unreachable" ETA returned for a non-positive speed. */
  const UnreachableEta: real := 999.0

  datatype GeoMath = GeoMath(
    /** haversine distance in km between (lat1, lon1) and (lat2, lon2) */
    distanceKm: (real, real, real, real) -> real,
    /** Python's `round(x, digits)` */
    round: (real, nat) -> real)

  /** Distances are non-negative and rounding is monotone. */
  ghost predicate WellBehaved(geo: GeoMath)
  {
    && (forall a, b, c, d :: geo.distanceKm(a, b, c, d) >= 0.0)
    && (forall x, y, n :: x <= y ==> geo.round(x, n) <= geo.round(y, n))
  }

  /** Unrounded travel time in minutes over `dist` km at `speed` km/h. */
  function TravelMinutes(dist: real, speed: real): real
    requires speed > 0.0
  {
    dist / speed * 60.0
  }

  /**
    The relay's `calculate_eta`: minutes rounded to one decimal, or the
    sentinel 999 when the speed is not positive.
   */
  function RelayEta(geo: GeoMath, lat1: real, lon1: real, lat2: real, lon2: real, speed: real): (eta: real)
    ensures speed <= 0.0 ==> eta == UnreachableEta
  {
    if speed <= 0.0 then UnreachableEta
    else geo.round(TravelMinutes(geo.distanceKm(lat1, lon1, lat2, lon2), speed), 1)
  }

  /**
    The responder console's `calculate_eta`: a (minutes, km) pair. With a
    non-positive speed the sentinel comes back with the UNROUNDED distance;
    otherwise both values are rounded, minutes to one decimal and km to two.
   */
  function ResponderEta(geo: GeoMath, lat1: real, lon1: real, lat2: real, lon2: real, speed: real): (r: (real, real))
    ensures speed <= 0.0 ==> r == (UnreachableEta, geo.distanceKm(lat1, lon1, lat2, lon2))
    ensures speed > 0.0 ==> r.0 == RelayEta(geo, lat1, lon1, lat2, lon2, speed)
    ensures speed > 0.0 ==> r.1 == geo.round(geo.distanceKm(lat1, lon1, lat2, lon2), 2)
  {
    var dist := geo.distanceKm(lat1, lon1, lat2, lon2);
    if speed <= 0.0 then (UnreachableEta, dist)
    else (geo.round(TravelMinutes(dist, speed), 1), geo.round(dist, 2))
  }

  /** A longer route never gives an earlier ETA, at the same positive speed. */
  lemma EtaMonotoneInDistance(geo: GeoMath, a: (real, real, real, real), b: (real, real, real, real), speed: real)
    requires WellBehaved(geo) && speed > 0.0
    requires geo.distanceKm(a.0, a.1, a.2, a.3) <= geo.distanceKm(b.0, b.1, b.2, b.3)
    ensures RelayEta(geo, a.0, a.1, a.2, a.3, speed) <= RelayEta(geo, b.0, b.1, b.2, b.3, speed)
  {
    var da := geo.distanceKm(a.0, a.1, a.2, a.3);
    var db := geo.distanceKm(b.0, b.1, b.2, b.3);
    DivideMonotone(da, db, speed);
    assert TravelMinutes(da, speed) <= TravelMinutes(db, speed);
  }

  /** Driving faster never gives a later ETA, for the same coordinates. */
  lemma EtaAntitoneInSpeed(geo: GeoMath, lat1: real, lon1: real, lat2: real, lon2: real, s1: real, s2: real)
    requires WellBehaved(geo) && 0.0 < s1 <= s2
    ensures RelayEta(geo, lat1, lon1, lat2, lon2, s2) <= RelayEta(geo, lat1, lon1, lat2, lon2, s1)
  {
    var d := geo.distanceKm(lat1, lon1, lat2, lon2);
    assert d >= 0.0;
    DivisorAntitone(d, s1, s2);
    assert TravelMinutes(d, s2) <= TravelMinutes(d, s1);
  }

  lemma DivideMonotone(x: real, y: real, s: real)
    requires x <= y && s > 0.0
    ensures x / s * 60.0 <= y / s * 60.0
  {
    assert y / s - x / s == (y - x) / s;
  }

  lemma DivisorAntitone(d: real, s1: real, s2: real)
    requires d >= 0.0 && 0.0 < s1 <= s2
    ensures d / s2 * 60.0 <= d / s1 * 60.0
  {
    assert d / s1 - d / s2 == d * (s2 - s1) / (s1 * s2);
    assert d * (s2 - s1) >= 0.0;
  }
}

=== FILE: relay.dfy ===
/**
  The relay hub. Each handler is a pure function from the hub's state and one
  parsed datagram to the next state and the ordered list of datagrams it
  sends. The hub keeps only the latest report, telemetry snapshot and
  acknowledgment (`latest_data`) plus the TPMS generator's tick.
 */
module Relay {
  import opened Wrappers
  import opened Wire
  import Telemetry
  import Geo

  /** The hub's own hop identifier. */
  const RelayHop := "RELAY"
  const AckKind := "ACK"
  const DefaultResponderId := "CAR_02"
  const UnknownEnvironment := "Unknown"

  /** The emergency record the hub keeps; fields copied from the report keep their absence. */
  datatype Emergency = Emergency(
    vehicleId: Option<string>,
    issue: Option<string>,
    rawDescription: Option<string>,
    latitude: Option<real>,
    longitude: Option<real>,
    timestamp: Option<string>,
    hopTrace: Option<seq<string>>,
    environmentStatus: string)

  /** `latest_data`: each field `None` until first written. */
  datatype LatestData = LatestData(
    sensorData: Option<EnvReading>,
    tpmsData: Option<Telemetry.Snapshot>,
    emergency: Option<Emergency>,
    car2Ack: Option<Packet>,
    car2Eta: Option<real>)

  const InitialLatest := LatestData(None, None, None, None, None)

  datatype RelayState = RelayState(latest: LatestData, generator: Telemetry.Generator)

  const InitialState := RelayState(InitialLatest, Telemetry.InitialGenerator)

  /**
    What the outside world supplies to one handler call: the TPMS deviations,
    the distance and rounding numerics, and the two wall-clock readings the
    handler takes, in the order it takes them.
   */
  datatype Inputs = Inputs(
    deviation: Telemetry.Wheel -> Telemetry.Deviation,
    geo: Geo.GeoMath,
    clock0: string,
    clock1: string)

  /** The next state and the datagrams sent, in order. */
  datatype Step = Step(state: RelayState, sends: seq<Send>)

  // ---------------------------------------------------------------- hop trace

  predicate NoDuplicates(s: seq<string>)
  {
    forall i, j :: 0 <= i < j < |s| ==> s[i] != s[j]
  }

  /**
    Adds the hub's identifier to a hop trace unless it is already there; a
    packet without a `hop_trace` key gets none.
   */
  function AppendRelayHop(trace: Option<seq<string>>): (r: Option<seq<string>>)
    ensures r.None? <==> trace.None?
    ensures r.Some? ==> trace.value <= r.value && RelayHop in r.value
    ensures r.Some? ==> |r.value| <= |trace.value| + 1
    ensures r.Some? && RelayHop in trace.value ==> r == trace
  {
    match trace
    case None => None
    case Some(t) => if RelayHop in t then trace else Some(t + [RelayHop])
  }

  lemma AppendRelayHopIdempotent(trace: Option<seq<string>>)
    ensures AppendRelayHop(AppendRelayHop(trace)) == AppendRelayHop(trace)
  {
  }

  /** A trace with unique hops keeps unique hops. */
  lemma AppendRelayHopKeepsHopsUnique(t: seq<string>)
    requires NoDuplicates(t)
    ensures NoDuplicates(AppendRelayHop(Some(t)).value)
  {
    if RelayHop !in t {
      var r := t + [RelayHop];
      forall i, j | 0 <= i < j < |r|
        ensures r[i] != r[j]
      {
        if j == |t| {
          assert r[i] == t[i];
        }
      }
    }
  }

  // ---------------------------------------------------------------- reports

  /** The packet forwarded to the responder: the report plus the hub's enrichment. */
  function Enrich(p: Packet, snapshot: Telemetry.Snapshot, relayTime: string): (fwd: Packet)
    ensures fwd.(tpmsData := p.tpmsData, relayTimestamp := p.relayTimestamp, hopTrace := p.hopTrace) == p
  {
    p.(tpmsData := Some(EncodeSnapshot(snapshot)),
       relayTimestamp := Some(relayTime),
       hopTrace := AppendRelayHop(p.hopTrace))
  }

  /**
    The record kept as `latest_data["emergency"]`: the report's own fields
    and the environment status, none of the hub's telemetry.
   */
  function EmergencyOf(fwd: Packet, env: string): (e: Emergency)
    ensures && e.vehicleId == fwd.vehicleId && e.issue == fwd.issue && e.rawDescription == fwd.rawDescription
            && e.latitude == fwd.latitude && e.longitude == fwd.longitude && e.timestamp == fwd.timestamp
            && e.hopTrace == fwd.hopTrace && e.environmentStatus == env
  {
    Emergency(fwd.vehicleId, fwd.issue, fwd.rawDescription, fwd.latitude, fwd.longitude,
              fwd.timestamp, fwd.hopTrace, env)
  }

  /**
    The hospital's `EMERGENCY_ALERT`: the report's fields, the environment
    status, a map link to the alert's own position and the relay timestamp.
   */
  function HospitalAlertOf(fwd: Packet, env: string): (a: HospitalAlert)
    ensures a.kind == "EMERGENCY_ALERT"
    ensures a.mapsLink == MapsLink(a.latitude, a.longitude)
    ensures a.relayTimestamp == fwd.relayTimestamp
    ensures var e := EmergencyOf(fwd, env);
            && a.vehicleId == e.vehicleId && a.issue == e.issue && a.rawDescription == e.rawDescription
            && a.latitude == e.latitude && a.longitude == e.longitude && a.timestamp == e.timestamp
            && a.environmentStatus == e.environmentStatus
  {
    HospitalAlert("EMERGENCY_ALERT", fwd.vehicleId, fwd.issue, fwd.rawDescription,
                  fwd.latitude, fwd.longitude, fwd.timestamp, env,
                  MapsLink(fwd.latitude, fwd.longitude), fwd.relayTimestamp)
  }

  /** The three messages of a report, to the responder, the hospital and the dashboard in that order. */
  predicate FansOutToThreeSinks(sends: seq<Send>)
  {
    && |sends| == 3
    && sends[0].to == ResponderEndpoint && sends[0].msg.ToResponder?
    && sends[1].to == HospitalEndpoint && sends[1].msg.ToHospital?
    && sends[2].to == DashboardEndpoint && sends[2].msg.ToDashboard?
  }

  /**
    `handle_esp32_packet` on a parsed report: attach a fresh TPMS snapshot
    and the relay timestamp, add the relay hop, overwrite the sensor,
    TPMS and emergency fields of the latest state, and send the responder,
    the hospital and the dashboard one message each, in that order.
   */
  function HandleReport(s: RelayState, p: Packet, inputs: Inputs): (r: Step)
    ensures r.state.generator.tick == s.generator.tick + 1
    ensures r.state.latest.car2Ack == s.latest.car2Ack && r.state.latest.car2Eta == s.latest.car2Eta
    ensures r.state.latest.emergency.Some?
    ensures FansOutToThreeSinks(r.sends)
  {
    var (generator, snapshot) := Telemetry.Generate(s.generator, inputs.deviation);
    var sensor := p.rsuEnvironment.GetOr(EmptyEnv);
    var env := p.environmentStatus.GetOr(UnknownEnvironment);
    var fwd := Enrich(p, snapshot, inputs.clock0);
    var latest := s.latest.(sensorData := Some(sensor),
                            tpmsData := Some(snapshot),
                            emergency := Some(EmergencyOf(fwd, env)));
    var dash := EmptyDashPacket.(kind := Some("EMERGENCY"), data := Some(fwd), sensorData := Some(sensor),
                                 tpmsData := fwd.tpmsData, environmentStatus := Some(env),
                                 timestamp := Some(inputs.clock1));
    Step(RelayState(latest, generator),
         [Send(ResponderEndpoint, ToResponder(fwd)),
          Send(HospitalEndpoint, ToHospital(HospitalAlertOf(fwd, env))),
          Send(DashboardEndpoint, ToDashboard(dash))])
  }

  /** The hub stores the report's roadside readings (an empty object when absent) and a valid snapshot. */
  lemma ReportStoresTelemetry(s: RelayState, p: Packet, inputs: Inputs)
    ensures var latest := HandleReport(s, p, inputs).state.latest;
            && latest.sensorData == Some(p.rsuEnvironment.GetOr(EmptyEnv))
            && latest.tpmsData.Some? && Telemetry.ValidSnapshot(latest.tpmsData.value)
            && latest.tpmsData == Some(Telemetry.Generate(s.generator, inputs.deviation).1)
  {
  }

  /**
    The forwarded report differs from the inbound one only in the enriched
    keys, and carries the very snapshot the hub stored.
   */
  lemma ReportForwardsEnrichedPacket(s: RelayState, p: Packet, inputs: Inputs)
    ensures var r := HandleReport(s, p, inputs);
            var fwd := r.sends[0].msg.packet;
            && fwd.(tpmsData := p.tpmsData, relayTimestamp := p.relayTimestamp, hopTrace := p.hopTrace) == p
            && fwd.relayTimestamp == Some(inputs.clock0)
            && fwd.hopTrace == AppendRelayHop(p.hopTrace)
            && fwd.tpmsData == Some(EncodeSnapshot(r.state.latest.tpmsData.value))
  {
  }

  /** The hospital sees the report's identity and location and the same relay timestamp. */
  lemma ReportAlertsHospital(s: RelayState, p: Packet, inputs: Inputs)
    ensures var r := HandleReport(s, p, inputs);
            var alert := r.sends[1].msg.alert;
            && alert.kind == "EMERGENCY_ALERT"
            && alert.vehicleId == p.vehicleId && alert.issue == p.issue
            && alert.rawDescription == p.rawDescription && alert.timestamp == p.timestamp
            && alert.latitude == p.latitude && alert.longitude == p.longitude
            && alert.mapsLink == MapsLink(p.latitude, p.longitude)
            && alert.relayTimestamp == r.sends[0].msg.packet.relayTimestamp
            && alert.environmentStatus == p.environmentStatus.GetOr(UnknownEnvironment)
  {
  }

  /** The dashboard sees the forwarded report, the stored sensor data and the same snapshot. */
  lemma ReportNotifiesDashboard(s: RelayState, p: Packet, inputs: Inputs)
    ensures var r := HandleReport(s, p, inputs);
            var dash := r.sends[2].msg.dash;
            && dash.kind == Some("EMERGENCY")
            && dash.data == Some(r.sends[0].msg.packet)
            && dash.sensorData == r.state.latest.sensorData
            && dash.tpmsData == r.sends[0].msg.packet.tpmsData
            && dash.environmentStatus == Some(p.environmentStatus.GetOr(UnknownEnvironment))
            && dash.timestamp == Some(inputs.clock1)
  {
  }

  /** The stored emergency is the forwarded report's identity, location and trace. */
  lemma ReportStoresEmergency(s: RelayState, p: Packet, inputs: Inputs)
    ensures var r := HandleReport(s, p, inputs);
            var e := r.state.latest.emergency.value;
            && e.vehicleId == p.vehicleId && e.issue == p.issue && e.rawDescription == p.rawDescription
            && e.latitude == p.latitude && e.longitude == p.longitude && e.timestamp == p.timestamp
            && e.hopTrace == r.sends[0].msg.packet.hopTrace
            && e.environmentStatus == p.environmentStatus.GetOr(UnknownEnvironment)
  {
  }

  /** The latest state keeps only the most recent report: an earlier one leaves no trace. */
  lemma LastReportWins(s: RelayState, p1: Packet, i1: Inputs, p2: Packet, i2: Inputs)
    ensures var after1 := HandleReport(s, p1, i1).state;
            var t := RelayState(s.latest, after1.generator);
            HandleReport(after1, p2, i2).state.latest == HandleReport(t, p2, i2).state.latest
  {
  }

  /** Feeding the forwarded report back through the hub adds no second relay hop. */
  lemma ReprocessingAddsNoHop(s: RelayState, p: Packet, i1: Inputs, i2: Inputs)
    ensures var fwd := HandleReport(s, p, i1).sends[0].msg.packet;
            var again := HandleReport(s, fwd, i2).sends[0].msg.packet;
            again.hopTrace == fwd.hopTrace
  {
    AppendRelayHopIdempotent(p.hopTrace);
  }

  // ---------------------------------------------------------------- acknowledgments

  /**
    The emergency's coordinates as the acknowledgment handler uses them:
    a coordinate missing from the report counts as 0. See `AckTargetAsWritten`
    for what the source does instead.
   */
  function AckTarget(e: Emergency): (r: (real, real))
    ensures e.latitude.Some? ==> r.0 == e.latitude.value
    ensures e.latitude.None? ==> r.0 == 0.0
    ensures e.longitude.Some? ==> r.1 == e.longitude.value
    ensures e.longitude.None? ==> r.1 == 0.0
  {
    (e.latitude.GetOr(0.0), e.longitude.GetOr(0.0))
  }

  /**
    The source's lookup `emergency.get("latitude", 0)`: the stored record
    always HAS the key, so a report without coordinates stored `None`, the
    default never applies, and the distance computation raises on `None`.
    `None` here stands for that uncaught exception.
   */
  function AckTargetAsWritten(e: Emergency): (r: Option<(real, real)>)
    ensures r.Some? <==> e.latitude.Some? && e.longitude.Some?
    ensures r.Some? ==> r.value == AckTarget(e)
  {
    if e.latitude.Some? && e.longitude.Some? then Some((e.latitude.value, e.longitude.value))
    else None
  }

  /**
    An acknowledgment that follows a report without a `latitude` key crashes
    the source's handler, where the evidently intended default is 0.
   */
  lemma AckAfterReportWithoutLatitudeRaises(s: RelayState, p: Packet, inputs: Inputs)
    requires p.latitude.None?
    ensures var e := HandleReport(s, p, inputs).state.latest.emergency.value;
            && AckTargetAsWritten(e).None?
            && AckTarget(e).0 == 0.0
  {
  }

  /** The (ETA minutes, rounded km) pair the handler reports; (0, 0) with no stored emergency. */
  function AckEstimate(latest: LatestData, ack: Packet, geo: Geo.GeoMath): (r: (real, real))
    ensures latest.emergency.None? ==> r == (0.0, 0.0)
    ensures latest.emergency.Some? ==>
              var (lat, lon) := AckTarget(latest.emergency.value);
              var (fromLat, fromLon) := (ack.car2Latitude.GetOr(0.0), ack.car2Longitude.GetOr(0.0));
              && r.0 == Geo.RelayEta(geo, fromLat, fromLon, lat, lon, Geo.DefaultSpeedKmh)
              && r.1 == geo.round(geo.distanceKm(fromLat, fromLon, lat, lon), 2)
  {
    match latest.emergency
    case None => (0.0, 0.0)
    case Some(e) =>
      var fromLat := ack.car2Latitude.GetOr(0.0);
      var fromLon := ack.car2Longitude.GetOr(0.0);
      var (lat, lon) := AckTarget(e);
      (Geo.RelayEta(geo, fromLat, fromLon, lat, lon, Geo.DefaultSpeedKmh),
       geo.round(geo.distanceKm(fromLat, fromLon, lat, lon), 2))
  }

  /**
    `handle_car2_ack` on a parsed datagram: anything but an "ACK" is ignored;
    otherwise one ETA/distance pair is computed against the stored emergency,
    recorded, and sent to the dashboard and then to the reporting console.
   */
  function HandleAck(s: RelayState, ack: Packet, inputs: Inputs): (r: Step)
    ensures ack.kind != Some(AckKind) ==> r == Step(s, [])
    ensures ack.kind == Some(AckKind) ==>
              && |r.sends| == 2
              && r.sends[0].to == DashboardEndpoint && r.sends[0].msg.ToDashboard?
              && r.sends[1].to == ReporterEndpoint && r.sends[1].msg.ToReporter?
    ensures ack.kind == Some(AckKind) ==>
              var dash := r.sends[0].msg.dash;
              var status := r.sends[1].msg.status;
              && dash.kind == Some("CAR2_ACK") && status.kind == Some("HELP_COMING")
              // one computation, two sinks, and the stored ETA is the one sent
              && dash.etaMinutes.Some? && dash.etaMinutes == status.etaMinutes == r.state.latest.car2Eta
              && dash.distanceKm.Some? && dash.distanceKm == status.distanceKm
              && dash.car2Id == status.helperId == Some(ack.car2Id.GetOr(DefaultResponderId))
              && dash.car2Latitude == Some(ack.car2Latitude.GetOr(0.0))
              && dash.car2Longitude == Some(ack.car2Longitude.GetOr(0.0))
              && dash.ackTimestamp == Some(inputs.clock0) && status.timestamp == Some(inputs.clock1)
              && (s.latest.emergency.None? ==> dash.etaMinutes == Some(0.0) && dash.distanceKm == Some(0.0))
    // the pair sent is the estimate against the stored emergency
    ensures ack.kind == Some(AckKind) ==>
              var dash := r.sends[0].msg.dash;
              (dash.etaMinutes.value, dash.distanceKm.value) == AckEstimate(s.latest, ack, inputs.geo)
    // nothing but the acknowledgment fields of the state changes
    ensures ack.kind == Some(AckKind) ==>
              && r.state.generator == s.generator
              && r.state.latest.(car2Ack := s.latest.car2Ack, car2Eta := s.latest.car2Eta) == s.latest
              && r.state.latest.car2Ack == Some(ack)
  {
    if ack.kind != Some(AckKind) then Step(s, [])
    else
      var (eta, distance) := AckEstimate(s.latest, ack, inputs.geo);
      var helper := ack.car2Id.GetOr(DefaultResponderId);
      var dash := EmptyDashPacket.(kind := Some("CAR2_ACK"), car2Id := Some(helper),
                                   car2Latitude := Some(ack.car2Latitude.GetOr(0.0)),
                                   car2Longitude := Some(ack.car2Longitude.GetOr(0.0)),
                                   etaMinutes := Some(eta), distanceKm := Some(distance),
                                   ackTimestamp := Some(inputs.clock0));
      var status := StatusPacket(Some("HELP_COMING"), Some(helper), Some(eta), Some(distance), Some(inputs.clock1));
      Step(s.(latest := s.latest.(car2Ack := Some(ack), car2Eta := Some(eta))),
           [Send(DashboardEndpoint, ToDashboard(dash)), Send(ReporterEndpoint, ToReporter(status))])
  }

  /**
    The hub does not match an acknowledgment against the vehicle it names:
    whichever vehicle it claims to help, the ETA, the distance and the sends
    are those for the stored emergency.
   */
  lemma AckIgnoresAccidentVehicle(s: RelayState, ack: Packet, v: Option<string>, inputs: Inputs)
    ensures HandleAck(s, ack, inputs).sends == HandleAck(s, ack.(accidentVehicle := v), inputs).sends
    ensures HandleAck(s, ack, inputs).state.latest.car2Eta == HandleAck(s, ack.(accidentVehicle := v), inputs).state.latest.car2Eta
  {
  }

  // ---------------------------------------------------------------- listeners

  /**
    The main listener: an unparseable datagram is dropped; "ACK" goes to the
    acknowledgment handler and anything else to the report handler.
   */
  function OnMainDatagram(s: RelayState, parsed: Option<Packet>, inputs: Inputs): (r: Step)
    ensures parsed.None? ==> r == Step(s, [])
    ensures parsed.Some? && parsed.value.kind == Some(AckKind) ==> r == HandleAck(s, parsed.value, inputs)
    ensures parsed.Some? && parsed.value.kind != Some(AckKind) ==> r == HandleReport(s, parsed.value, inputs)
    ensures parsed.Some? && parsed.value.kind == Some(AckKind) ==>
              && r.state.generator == s.generator
              && r.state.latest.emergency == s.latest.emergency
              && |r.sends| == 2 && r.sends[1].to == ReporterEndpoint
    ensures parsed.Some? && parsed.value.kind != Some(AckKind) ==>
              && r.state.generator.tick == s.generator.tick + 1
              && r.state.latest.car2Ack == s.latest.car2Ack
              && |r.sends| == 3 && r.sends[0].to == ResponderEndpoint
  {
    match parsed
    case None => Step(s, [])
    case Some(p) => if p.kind == Some(AckKind) then HandleAck(s, p, inputs) else HandleReport(s, p, inputs)
  }

  /** The acknowledgment listener: unparseable or non-"ACK" datagrams change nothing. */
  function OnAckDatagram(s: RelayState, parsed: Option<Packet>, inputs: Inputs): (r: Step)
    ensures parsed.None? || parsed.value.kind != Some(AckKind) ==> r == Step(s, [])
    ensures parsed.Some? ==> r == HandleAck(s, parsed.value, inputs)
    ensures r.state.generator == s.generator
    ensures r.state.latest.emergency == s.latest.emergency
    ensures r.state.latest.tpmsData == s.latest.tpmsData && r.state.latest.sensorData == s.latest.sensorData
  {
    match parsed
    case None => Step(s, [])
    case Some(p) => HandleAck(s, p, inputs)
  }

  /**
    One round of `tpms_broadcast_loop`: a fresh snapshot replaces the stored
    one and goes to the dashboard as a TPMS_UPDATE.
   */
  function BroadcastTick(s: RelayState, deviation: Telemetry.Wheel -> Telemetry.Deviation, clock: string): (r: Step)
    ensures r.state.generator.tick == s.generator.tick + 1
    ensures r.state.latest.tpmsData.Some? && Telemetry.ValidSnapshot(r.state.latest.tpmsData.value)
    ensures r.state.latest.tpmsData == Some(Telemetry.Generate(s.generator, deviation).1)
    ensures r.state.latest.(tpmsData := s.latest.tpmsData) == s.latest
    ensures |r.sends| == 1 && r.sends[0].to == DashboardEndpoint && r.sends[0].msg.ToDashboard?
    ensures var dash := r.sends[0].msg.dash;
            && dash.kind == Some("TPMS_UPDATE")
            && dash.tpmsData == Some(EncodeSnapshot(r.state.latest.tpmsData.value))
            && dash.data.None? && dash.sensorData.None?
  {
    var (generator, snapshot) := Telemetry.Generate(s.generator, deviation);
    var dash := EmptyDashPacket.(kind := Some("TPMS_UPDATE"), tpmsData := Some(EncodeSnapshot(snapshot)),
                                 timestamp := Some(clock));
    Step(RelayState(s.latest.(tpmsData := Some(snapshot)), generator),
         [Send(DashboardEndpoint, ToDashboard(dash))])
  }
}

=== FILE: responder_console.dfy ===
/**
  The responder console: a small state machine that keeps the latest alert
  forwarded by the relay and, when the driver acknowledges it, sends the
  relay an "ACK" datagram with its own position and an ETA estimate.
 */
module ResponderConsole {
  import opened Wrappers
  import opened Wire
  import Geo

  const ResponderId := "CAR_02"
  const AckKind := "ACK"
  /** The position used when the location lookup fails. */
  const FallbackLatitude: real := 28.6139
  const FallbackLongitude: real := 77.2090

  datatype Status = Monitoring | EmergencyReceived | Responding

  /** One line of the console's activity log. */
  datatype LogLine =
    | AlertLogged(vehicleId: string, issue: string)
    | LocationLogged(latitude: real, longitude: real)
    | AckLogged(etaMinutes: real, distanceKm: real)
    | AckFailed

  datatype ResponderState = ResponderState(
    pending: Option<Packet>,
    /** the (minutes, km) line under the alert; `None` when blank */
    etaShown: Option<(real, real)>,
    ackEnabled: bool,
    status: Status,
    latitude: real,
    longitude: real,
    log: seq<LogLine>)

  /** The console at start-up: no alert, position (0, 0) until the lookup completes. */
  const InitialResponder := ResponderState(None, None, true, Monitoring, 0.0, 0.0, [])

  /** `fetch_gps`: the looked-up position, or the fallback when the lookup fails. */
  function FetchPosition(s: ResponderState, fix: Option<(real, real)>): (r: ResponderState)
    ensures fix.Some? ==> (r.latitude, r.longitude) == fix.value
    ensures fix.None? ==> r.latitude == FallbackLatitude && r.longitude == FallbackLongitude
    ensures r.(latitude := s.latitude, longitude := s.longitude) == s
  {
    match fix
    case Some((lat, lon)) => s.(latitude := lat, longitude := lon)
    case None => s.(latitude := FallbackLatitude, longitude := FallbackLongitude)
  }

  /**
    `on_message_received`: the new alert replaces any pending one, the ETA
    line is cleared and the acknowledge button is enabled again.
   */
  function OnMessageReceived(s: ResponderState, packet: Packet): (r: ResponderState)
    ensures r.pending == Some(packet)
    ensures r.etaShown.None? && r.ackEnabled && r.status == EmergencyReceived
    ensures r.latitude == s.latitude && r.longitude == s.longitude
    ensures r.log == s.log + [AlertLogged(packet.vehicleId.GetOr("Unknown"), packet.issue.GetOr("Unknown")),
                              LocationLogged(packet.latitude.GetOr(0.0), packet.longitude.GetOr(0.0))]
  {
    s.(pending := Some(packet), etaShown := None, ackEnabled := true, status := EmergencyReceived,
       log := s.log + [AlertLogged(packet.vehicleId.GetOr("Unknown"), packet.issue.GetOr("Unknown")),
                       LocationLogged(packet.latitude.GetOr(0.0), packet.longitude.GetOr(0.0))])
  }

  /** Of two alerts in a row, only the second is pending. */
  lemma LastAlertWins(s: ResponderState, first: Packet, second: Packet)
    ensures OnMessageReceived(OnMessageReceived(s, first), second).pending == Some(second)
    ensures OnMessageReceived(OnMessageReceived(s, first), second).(log := []) ==
            OnMessageReceived(s, second).(log := [])
  {
  }

  /** The datagram an acknowledgment of `pkt` sends to the relay. */
  function AckPacket(s: ResponderState, pkt: Packet, geo: Geo.GeoMath, clock: string): (ack: Packet)
    ensures ack.kind == Some(AckKind) && ack.car2Id == Some(ResponderId)
    ensures ack.car2Latitude == Some(s.latitude) && ack.car2Longitude == Some(s.longitude)
    ensures ack.accidentVehicle == pkt.vehicleId
    ensures ack.ackTimestamp == Some(clock)
    ensures ack.etaMinutes.Some? && ack.distanceKm.Some?
    ensures ack.vehicleId.None? && ack.hopTrace.None? && ack.tpmsData.None?
    // no key beyond the eight of the ACK
    ensures ack.(kind := None, car2Id := None, car2Latitude := None, car2Longitude := None,
                 accidentVehicle := None, etaMinutes := None, distanceKm := None, ackTimestamp := None) == EmptyPacket
  {
    var (eta, distance) := Geo.ResponderEta(geo, s.latitude, s.longitude,
                                            pkt.latitude.GetOr(0.0), pkt.longitude.GetOr(0.0),
                                            Geo.DefaultSpeedKmh);
    EmptyPacket.(kind := Some(AckKind), car2Id := Some(ResponderId),
                 car2Latitude := Some(s.latitude), car2Longitude := Some(s.longitude),
                 accidentVehicle := pkt.vehicleId, etaMinutes := Some(eta), distanceKm := Some(distance),
                 ackTimestamp := Some(clock))
  }

  /** A pending alert that is missing or an empty object, which Python treats as false. */
  predicate NothingPending(s: ResponderState)
  {
    s.pending.None? || s.pending.value.IsEmpty()
  }

  /**
    `acknowledge_emergency`: without a pending alert nothing happens. Otherwise
    the ACK is sent to the relay; `sent` says whether the socket accepted it.
    On success the button is disabled and the ETA shown; on failure only a log
    line is added.
   */
  function Acknowledge(s: ResponderState, geo: Geo.GeoMath, clock: string, sent: bool)
    : (r: (ResponderState, Option<Send>))
    ensures NothingPending(s) ==> r == (s, None)
    ensures !NothingPending(s) ==>
              && r.1 == Some(Send(RelayAckEndpoint, ToRelay(AckPacket(s, s.pending.value, geo, clock))))
              && r.0.pending == s.pending
    ensures !NothingPending(s) && sent ==>
              var (eta, km) := (r.1.value.msg.packet.etaMinutes.value, r.1.value.msg.packet.distanceKm.value);
              r.0 == s.(ackEnabled := false, status := Responding, etaShown := Some((eta, km)),
                        log := s.log + [AckLogged(eta, km)])
    ensures !NothingPending(s) && !sent ==> r.0 == s.(log := s.log + [AckFailed])
  {
    if NothingPending(s) then (s, None)
    else
      var ack := AckPacket(s, s.pending.value, geo, clock);
      var out := Send(RelayAckEndpoint, ToRelay(ack));
      if sent then
        var shown := (ack.etaMinutes.value, ack.distanceKm.value);
        (s.(ackEnabled := false, status := Responding, etaShown := Some(shown),
            log := s.log + [AckLogged(shown.0, shown.1)]), Some(out))
      else
        (s.(log := s.log + [AckFailed]), Some(out))
  }

  /** The ACK's ETA/distance pair is the responder's own estimate toward the alert's position. */
  lemma AckCarriesEstimate(s: ResponderState, pkt: Packet, geo: Geo.GeoMath, clock: string)
    ensures var ack := AckPacket(s, pkt, geo, clock);
            (ack.etaMinutes.value, ack.distanceKm.value) ==
            Geo.ResponderEta(geo, s.latitude, s.longitude, pkt.latitude.GetOr(0.0), pkt.longitude.GetOr(0.0), Geo.DefaultSpeedKmh)
  {
  }

  /** A second acknowledgment after a successful one sends the same ACK again: the button, not the logic, prevents it. */
  lemma AcknowledgeAgainResends(s: ResponderState, geo: Geo.GeoMath, clock: string)
    requires !NothingPending(s)
    ensures var first := Acknowledge(s, geo, clock, true);
            Acknowledge(first.0, geo, clock, true).1 == first.1
  {
  }
}

=== FILE: scenario.dfy ===
/**
  End-to-end properties across the components: what the driver console
  sends, how the relay routes and enriches it, what the responder sends back
  and what the dashboard and the driver end up showing.
 */
module Scenario {
  import opened Wrappers
  import opened Wire
  import Text
  import Telemetry
  import Geo
  import Relay
  import DriverConsole
  import ResponderConsole
  import Dashboard
  import Transport

  /**
    A datagram without a `type` that left the driver console reaches the
    relay's report handler, is forwarded with the trace ["CAR_01", "RELAY"]
    and fans out to the three sinks.
   */
  lemma ReportFromDriverIsRelayed(s: Relay.RelayState, p: Packet, inputs: Relay.Inputs)
    requires p.kind.None? && p.hopTrace == Some([DriverConsole.VehicleId])
    ensures var r := Relay.OnMainDatagram(s, Some(p), inputs);
            && r == Relay.HandleReport(s, p, inputs)
            && Relay.FansOutToThreeSinks(r.sends)
            && r.sends[0].msg.packet.hopTrace == Some([DriverConsole.VehicleId, Relay.RelayHop])
  {
    var trace := [DriverConsole.VehicleId];
    assert Relay.RelayHop !in trace;
    assert Relay.AppendRelayHop(p.hopTrace) == Some(trace + [Relay.RelayHop]);
    assert trace + [Relay.RelayHop] == [DriverConsole.VehicleId, Relay.RelayHop];
    Relay.ReportForwardsEnrichedPacket(s, p, inputs);
  }

  /**
    Every report the driver console builds is such a datagram, assuming the
    roadside unit in between forwards `hop_trace` unchanged.
   */
  lemma DriverReportIsRelayed(text: string, latitude: real, longitude: real, clock: string,
                              s: Relay.RelayState, inputs: Relay.Inputs)
    requires !Text.AllSpace(text)
    ensures var p := DriverConsole.BuildReport(text, latitude, longitude, clock).value;
            var r := Relay.OnMainDatagram(s, Some(p), inputs);
            && Relay.FansOutToThreeSinks(r.sends)
            && r.sends[0].msg.packet.hopTrace == Some([DriverConsole.VehicleId, Relay.RelayHop])
  {
    var built := DriverConsole.BuildReport(text, latitude, longitude, clock);
    assert built.Some?;
    ReportFromDriverIsRelayed(s, built.value, inputs);
  }

  /**
    The responder's acknowledgment goes to the relay's acknowledgment port
    and is handled the same way there as on the main port.
   */
  lemma ResponderAckIsHandled(rs: ResponderConsole.ResponderState, geo: Geo.GeoMath, clock: string, sent: bool,
                              s: Relay.RelayState, inputs: Relay.Inputs)
    requires !ResponderConsole.NothingPending(rs)
    ensures var out := ResponderConsole.Acknowledge(rs, geo, clock, sent).1.value;
            var ack := out.msg.packet;
            && out.to.port == RelayAckPort
            && Relay.OnAckDatagram(s, Some(ack), inputs) == Relay.HandleAck(s, ack, inputs)
            && Relay.OnMainDatagram(s, Some(ack), inputs) == Relay.HandleAck(s, ack, inputs)
            && |Relay.HandleAck(s, ack, inputs).sends| == 2
  {
  }

  /**
    The ETA the driver's help card shows is the one on the dashboard's
    responder card and the one the relay recorded, and so are the distance
    and the helper's name.
   */
  lemma DriverAndDashboardAgree(s: Relay.RelayState, ack: Packet, inputs: Relay.Inputs,
                                c: DriverConsole.ConsoleState, d: Dashboard.DashboardState)
    requires ack.kind == Some(Relay.AckKind)
    ensures var r := Relay.HandleAck(s, ack, inputs);
            var card := DriverConsole.OnStatusReceived(c, r.sends[1].msg.status).help.value;
            var shown := Dashboard.OnDataReceived(d, r.sends[0].msg.dash).responder.value;
            && card.etaMinutes == shown.etaMinutes == r.state.latest.car2Eta
            && card.distanceKm == shown.distanceKm
            && card.helperId == shown.car2Id == ack.car2Id.GetOr(Relay.DefaultResponderId)
  {
  }

  /** The dashboard's wheel tiles show exactly the snapshot the relay stored with the report. */
  lemma DashboardShowsReportSnapshot(s: Relay.RelayState, p: Packet, inputs: Relay.Inputs, d: Dashboard.DashboardState)
    ensures var r := Relay.HandleReport(s, p, inputs);
            var snap := r.state.latest.tpmsData.value;
            var d1 := Dashboard.OnDataReceived(d, r.sends[2].msg.dash);
            forall w :: w in snap ==>
              d1.tiles[w] == Dashboard.WheelTile(snap[w].pressurePsi, snap[w].temperatureC,
                                                 Telemetry.StatusName(snap[w].status))
  {
    var r := Relay.HandleReport(s, p, inputs);
    var snap := r.state.latest.tpmsData.value;
    var dash := r.sends[2].msg.dash;
    Relay.ReportForwardsEnrichedPacket(s, p, inputs);
    Relay.ReportNotifiesDashboard(s, p, inputs);
    assert dash.tpmsData == Some(EncodeSnapshot(snap));
    var d0 := Dashboard.UpdateSensors(d, dash.sensorData.GetOr(EmptyEnv));
    Dashboard.UpdateTpmsShowsSnapshot(d0, snap);
  }

  /** The same holds for the periodic TPMS broadcast. */
  lemma DashboardShowsBroadcastSnapshot(s: Relay.RelayState, deviation: Telemetry.Wheel -> Telemetry.Deviation,
                                        clock: string, d: Dashboard.DashboardState)
    ensures var r := Relay.BroadcastTick(s, deviation, clock);
            var snap := r.state.latest.tpmsData.value;
            var d1 := Dashboard.OnDataReceived(d, r.sends[0].msg.dash);
            && d1.(tiles := d.tiles) == d
            && forall w :: w in snap ==>
                 d1.tiles[w] == Dashboard.WheelTile(snap[w].pressurePsi, snap[w].temperatureC,
                                                    Telemetry.StatusName(snap[w].status))
  {
    var r := Relay.BroadcastTick(s, deviation, clock);
    Dashboard.UpdateTpmsShowsSnapshot(d, r.state.latest.tpmsData.value);
  }

  /**
    An acknowledgment is measured against the most recent report only: after
    two reports, the ETA is toward the second report's position. This uses the
    corrected `AckTarget`; when the second report carries both coordinates
    the lookup as written finds the same position, so there the property
    holds for the unmodified handler as well.
   */
  lemma AckMeasuresAgainstLastReport(s: Relay.RelayState, p1: Packet, i1: Relay.Inputs, p2: Packet, i2: Relay.Inputs,
                                     ack: Packet, i3: Relay.Inputs)
    requires ack.kind == Some(Relay.AckKind)
    ensures var s2 := Relay.HandleReport(Relay.HandleReport(s, p1, i1).state, p2, i2).state;
            && Relay.HandleAck(s2, ack, i3).state.latest.car2Eta ==
               Some(Geo.RelayEta(i3.geo, ack.car2Latitude.GetOr(0.0), ack.car2Longitude.GetOr(0.0),
                                 p2.latitude.GetOr(0.0), p2.longitude.GetOr(0.0), Geo.DefaultSpeedKmh))
            && (p2.latitude.Some? && p2.longitude.Some? ==>
                  Relay.AckTargetAsWritten(s2.latest.emergency.value) == Some((p2.latitude.value, p2.longitude.value)))
  {
    var s1 := Relay.HandleReport(s, p1, i1).state;
    Relay.ReportStoresEmergency(s1, p2, i2);
  }

  /**
    When the responder acknowledges the alert the relay forwarded, the relay
    recomputes exactly the ETA and distance the responder sent, so the driver
    sees the responder's own estimate. This uses the corrected `AckTarget`;
    for a report with both coordinates the lookup as written finds the same
    target, so there it holds for the unmodified handler too.
   */
  lemma RelayConfirmsResponderEstimate(s: Relay.RelayState, p: Packet, i1: Relay.Inputs,
                                       rs: ResponderConsole.ResponderState, clock: string, i2: Relay.Inputs)
    ensures var step := Relay.HandleReport(s, p, i1);
            var fwd := step.sends[0].msg.packet;
            var rs1 := ResponderConsole.OnMessageReceived(rs, fwd);
            var ack := ResponderConsole.Acknowledge(rs1, i2.geo, clock, true).1.value.msg.packet;
            var status := Relay.HandleAck(step.state, ack, i2).sends[1].msg.status;
            && status.etaMinutes == ack.etaMinutes && status.distanceKm == ack.distanceKm
            && (p.latitude.Some? && p.longitude.Some? ==>
                  Relay.AckTargetAsWritten(step.state.latest.emergency.value) == Some((p.latitude.value, p.longitude.value)))
  {
    var step := Relay.HandleReport(s, p, i1);
    var fwd := step.sends[0].msg.packet;
    Relay.ReportForwardsEnrichedPacket(s, p, i1);
    Relay.ReportStoresEmergency(s, p, i1);
    assert fwd.tpmsData.Some?;
    var rs1 := ResponderConsole.OnMessageReceived(rs, fwd);
    assert !ResponderConsole.NothingPending(rs1);
    ResponderConsole.AckCarriesEstimate(rs1, fwd, i2.geo, clock);
  }

  /**
    The three messages of a report are sent one by one, each in its own
    `try`: whichever of them the network accepts is delivered, whatever
    happened to the ones before it. In particular the hospital is alerted
    even when the send to the responder fails.
   */
  lemma ReportSendsAreIndependent(s: Relay.RelayState, p: Packet, inputs: Relay.Inputs, ok: nat -> bool)
    ensures var sends := Relay.HandleReport(s, p, inputs).sends;
            var out := Transport.Delivered(Transport.Transmit(sends, ok));
            forall i :: 0 <= i < 3 && ok(i) ==> sends[i] in out
  {
    var sends := Relay.HandleReport(s, p, inputs).sends;
    var log := Transport.Transmit(sends, ok);
    forall i | 0 <= i < 3 && ok(i)
      ensures sends[i] in Transport.Delivered(log)
    {
      Transport.DeliveredContains(log, i);
    }
  }

  /**
    The dashboard's environment panel shows the report's environment
    status; a report without one shows "Unknown", which reads as normal.
   */
  lemma DashboardShowsReportEnvironment(s: Relay.RelayState, p: Packet, inputs: Relay.Inputs, d: Dashboard.DashboardState)
    ensures var d1 := Dashboard.OnDataReceived(d, Relay.HandleReport(s, p, inputs).sends[2].msg.dash);
            && d1.envStatus == p.environmentStatus.GetOr(Relay.UnknownEnvironment)
            && (p.environmentStatus.None? ==> Dashboard.EnvDisplay(d1.envStatus) == Dashboard.NormalEnvironment)
  {
    var dash := Relay.HandleReport(s, p, inputs).sends[2].msg.dash;
    Relay.ReportNotifiesDashboard(s, p, inputs);
    assert dash.kind == Some("EMERGENCY");
    assert Dashboard.OnDataReceived(d, dash) == Dashboard.HandleEmergency(d, dash);
    assert dash.environmentStatus == Some(p.environmentStatus.GetOr(Relay.UnknownEnvironment));
    Dashboard.UnknownStatusIsNormal();
  }
}

=== FILE: telemetry.dfy ===
/**
  The relay's synthetic tyre-pressure (TPMS) generator. Each call advances a
  tick counter and produces one reading per wheel: a per-wheel base value plus
  a deviation (the sinusoidal drift, random jitter and one-decimal rounding of
  the source, taken here as an arbitrary input), clamped into fixed ranges,
  with a status derived from the clamped pressure.
 */
module Telemetry {

  datatype Wheel = FL | FR | RL | RR

  /** The order in which the generator visits the wheels. */
  const AllWheels: seq<Wheel> := [FL, FR, RL, RR]

  lemma AllWheelsListed()
    ensures forall w: Wheel :: w in AllWheels
  {
    forall w: Wheel
      ensures w in AllWheels
    {
      match w
      case FL => assert AllWheels[0] == w;
      case FR => assert AllWheels[1] == w;
      case RL => assert AllWheels[2] == w;
      case RR => assert AllWheels[3] == w;
    }
  }

  const MinPressure: real := 25.0
  const MaxPressure: real := 42.0
  const MinTemperature: real := 20.0
  const MaxTemperature: real := 90.0
  const LowPressureBelow: real := 28.0
  const HighPressureAbove: real := 38.0

  /** The JSON key of a wheel. */
  function WheelKey(w: Wheel): string
  {
    match w
    case FL => "FL"
    case FR => "FR"
    case RL => "RL"
    case RR => "RR"
  }

  function BasePressure(w: Wheel): real
  {
    match w
    case FL => 33.0
    case FR => 33.5
    case RL => 32.0
    case RR => 32.5
  }

  function BaseTemperature(w: Wheel): real
  {
    match w
    case FL => 35.0
    case FR => 36.0
    case RL => 34.0
    case RR => 35.5
  }

  /** Python's `max(lo, min(hi, x))`. */
  function Clamp(lo: real, hi: real, x: real): (r: real)
    ensures lo <= hi ==> lo <= r <= hi
    ensures lo <= x <= hi ==> r == x
    ensures x < lo ==> r == lo
    ensures lo <= hi && hi < x ==> r == hi
  {
    var capped := if x < hi then x else hi;
    if lo > capped then lo else capped
  }

  lemma ClampIdempotent(lo: real, hi: real, x: real)
    requires lo <= hi
    ensures Clamp(lo, hi, Clamp(lo, hi, x)) == Clamp(lo, hi, x)
  {
  }

  datatype TyreStatus = Low | High | Ok

  /** The status string sent on the wire. */
  function StatusName(s: TyreStatus): string
  {
    match s
    case Low => "LOW"
    case High => "HIGH"
    case Ok => "OK"
  }

  /** A wheel's status; the three statuses partition the pressure axis at 28 and 38 psi. */
  function StatusOf(pressure: real): (r: TyreStatus)
    ensures r == Low <==> pressure < 28.0
    ensures r == High <==> pressure > 38.0
    ensures r == Ok <==> 28.0 <= pressure <= 38.0
  {
    if pressure < LowPressureBelow then Low
    else if pressure > HighPressureAbove then High
    else Ok
  }

  datatype Reading = Reading(pressurePsi: real, temperatureC: real, status: TyreStatus)

  /** The pre-clamp offsets from a wheel's base values for one call. */
  datatype Deviation = Deviation(pressure: real, temperature: real)

  type Snapshot = map<Wheel, Reading>

  /** The invariant every generated reading satisfies. */
  predicate ValidReading(r: Reading)
  {
    && MinPressure <= r.pressurePsi <= MaxPressure
    && MinTemperature <= r.temperatureC <= MaxTemperature
    && r.status == StatusOf(r.pressurePsi)
  }

  predicate ValidSnapshot(s: Snapshot)
  {
    && s.Keys == {FL, FR, RL, RR}
    && forall w :: w in s ==> ValidReading(s[w])
  }

  /** One wheel's reading: base plus deviation, each clamped to its range, and the status of the pressure. */
  function ReadingFor(w: Wheel, dev: Deviation): (r: Reading)
    ensures ValidReading(r)
    ensures r.pressurePsi == Clamp(MinPressure, MaxPressure, BasePressure(w) + dev.pressure)
    ensures r.temperatureC == Clamp(MinTemperature, MaxTemperature, BaseTemperature(w) + dev.temperature)
  {
    var pressure := Clamp(MinPressure, MaxPressure, BasePressure(w) + dev.pressure);
    var temperature := Clamp(MinTemperature, MaxTemperature, BaseTemperature(w) + dev.temperature);
    Reading(pressure, temperature, StatusOf(pressure))
  }

  datatype Generator = Generator(tick: nat)

  const InitialGenerator := Generator(0)

  /**
    `TPMSGenerator.generate`: the next generator state and a snapshot of all
    four wheels, whatever the deviations are.
   */
  function Generate(g: Generator, deviation: Wheel -> Deviation): (r: (Generator, Snapshot))
    ensures r.0.tick == g.tick + 1
    ensures ValidSnapshot(r.1)
    ensures forall w :: w in r.1 ==> r.1[w].pressurePsi == Clamp(MinPressure, MaxPressure, BasePressure(w) + deviation(w).pressure)
    ensures forall w :: w in r.1 ==> r.1[w].temperatureC == Clamp(MinTemperature, MaxTemperature, BaseTemperature(w) + deviation(w).temperature)
  {
    (Generator(g.tick + 1), map w | w in AllWheels :: ReadingFor(w, deviation(w)))
  }

  /**
    A raw value that already lies in range passes through the clamp
    untouched; one that falls outside is pinned to the nearest bound.
   */
  lemma GeneratedPressureTracksRaw(g: Generator, deviation: Wheel -> Deviation, w: Wheel)
    ensures var p := Generate(g, deviation).1[w].pressurePsi;
            var raw := BasePressure(w) + deviation(w).pressure;
            && (MinPressure <= raw <= MaxPressure ==> p == raw)
            && (raw < MinPressure ==> p == MinPressure && Generate(g, deviation).1[w].status == Low)
            && (raw > MaxPressure ==> p == MaxPressure && Generate(g, deviation).1[w].status == High)
  {
  }

  /** The same for temperature, which has no status of its own. */
  lemma GeneratedTemperatureTracksRaw(g: Generator, deviation: Wheel -> Deviation, w: Wheel)
    ensures var t := Generate(g, deviation).1[w].temperatureC;
            var raw := BaseTemperature(w) + deviation(w).temperature;
            && (MinTemperature <= raw <= MaxTemperature ==> t == raw)
            && (raw < MinTemperature ==> t == MinTemperature)
            && (raw > MaxTemperature ==> t == MaxTemperature)
  {
  }
}

=== FILE: text.dfy ===
/**
  String helpers the consoles rely on: substring search (Python's `in` on
  strings), lower-casing (`str.lower`) and whitespace stripping (`str.strip`).
  Lower-casing and the whitespace set are ASCII only.
 */
module Text {

  /** `sub` occurs in `s` at position `i`. */
  predicate OccursAt(s: string, sub: string, i: nat)
  {
    i + |sub| <= |s| && s[i..i + |sub|] == sub
  }

  /** Python's `sub in s`. */
  predicate Contains(s: string, sub: string)
  {
    exists i: nat | i <= |s| :: OccursAt(s, sub, i)
  }

  lemma ContainsWitness(s: string, sub: string, i: nat)
    requires i + |sub| <= |s| && s[i..i + |sub|] == sub
    ensures Contains(s, sub)
  {
    assert OccursAt(s, sub, i);
  }

  function LowerChar(c: char): (d: char)
    ensures 'A' <= c <= 'Z' ==> 'a' <= d <= 'z'
    ensures !('A' <= c <= 'Z') ==> d == c
  {
    if 'A' <= c <= 'Z' then (c as int - 'A' as int + 'a' as int) as char else c
  }

  /** ASCII `str.lower()`. */
  function ToLower(s: string): (r: string)
    ensures |r| == |s|
    ensures forall i :: 0 <= i < |s| ==> r[i] == LowerChar(s[i])
  {
    if |s| == 0 then [] else [LowerChar(s[0])] + ToLower(s[1..])
  }

  /** Lower-casing twice is lower-casing once. */
  lemma ToLowerIdempotent(s: string)
    ensures ToLower(ToLower(s)) == ToLower(s)
  {
    var once := ToLower(s);
    var twice := ToLower(once);
    forall i | 0 <= i < |s|
      ensures twice[i] == once[i]
    {
      assert once[i] == LowerChar(s[i]);
    }
  }

  /** Whitespace as Python's `str.strip()` sees it (ASCII subset). */
  predicate IsSpace(c: char)
  {
    || c == ' ' || c == '\t' || c == '\n' || c == '\r' || c == '\U{B}' || c == '\U{C}'
    || c == '\U{1C}' || c == '\U{1D}' || c == '\U{1E}' || c == '\U{1F}'
  }

  /** Every position of `s` from `lo` up to `hi` exists and holds whitespace. */
  predicate SpaceBetween(s: string, lo: int, hi: int)
  {
    forall i | lo <= i < hi :: 0 <= i < |s| && IsSpace(s[i])
  }

  predicate AllSpace(s: string)
  {
    SpaceBetween(s, 0, |s|)
  }

  /** The end of the run of whitespace in `s` that starts at `i`. */
  function SpaceRunEnd(s: string, i: nat): (n: nat)
    requires i <= |s|
    ensures i <= n <= |s| && SpaceBetween(s, i, n)
    ensures n < |s| ==> !IsSpace(s[n])
    decreases |s| - i
  {
    if i < |s| && IsSpace(s[i]) then SpaceRunEnd(s, i + 1) else i
  }

  /** The start of the run of whitespace in `s` that ends at `j`. */
  function SpaceRunStart(s: string, j: nat): (n: nat)
    requires j <= |s|
    ensures n <= j && SpaceBetween(s, n, j)
    ensures n > 0 ==> !IsSpace(s[n - 1])
  {
    if j > 0 && IsSpace(s[j - 1]) then SpaceRunStart(s, j - 1) else j
  }

  /** The two properties of `SpaceRunStart` single it out. */
  lemma SpaceRunStartUnique(s: string, j: nat, n: nat)
    requires n <= j <= |s| && SpaceBetween(s, n, j) && (n > 0 ==> !IsSpace(s[n - 1]))
    ensures SpaceRunStart(s, j) == n
  {
  }

  /** `str.lstrip()`: the longest suffix of `s` that does not start with whitespace. */
  function TrimLeft(s: string): (r: string)
    ensures |r| <= |s| && r == s[|s| - |r|..]
    ensures SpaceBetween(s, 0, |s| - |r|)
    ensures |r| > 0 ==> !IsSpace(r[0])
  {
    s[SpaceRunEnd(s, 0)..]
  }

  /** `str.rstrip()`: the longest prefix of `s` that does not end with whitespace. */
  function TrimRight(s: string): (r: string)
    ensures |r| <= |s| && r == s[..|r|]
    ensures SpaceBetween(s, |r|, |s|)
    ensures |r| > 0 ==> !IsSpace(r[|r| - 1])
  {
    s[..SpaceRunStart(s, |s|)]
  }

  /** `str.strip()`: a contiguous slice of `s`, with only whitespace cut from either end. */
  function Strip(s: string): (r: string)
    ensures exists lo: nat, hi: nat :: lo <= hi <= |s| && r == s[lo..hi]
                                       && SpaceBetween(s, 0, lo) && SpaceBetween(s, hi, |s|)
    ensures |r| > 0 ==> !IsSpace(r[0]) && !IsSpace(r[|r| - 1])
    ensures |r| == 0 <==> AllSpace(s)
  {
    var lo := SpaceRunEnd(s, 0);
    var hi := SpaceRunStart(s, |s|);
    StripEmptyIffAllSpace(s);
    if hi <= lo then
      assert s[0..0] == [] && SpaceBetween(s, 0, 0) && SpaceBetween(s, 0, |s|);
      []
    else
      assert SpaceBetween(s, 0, lo) && SpaceBetween(s, hi, |s|);
      s[lo..hi]
  }

  /** Stripping leaves nothing exactly when the whole input is whitespace. */
  lemma StripEmptyIffAllSpace(s: string)
    ensures SpaceRunStart(s, |s|) <= SpaceRunEnd(s, 0) <==> AllSpace(s)
  {
    var lo := SpaceRunEnd(s, 0);
    var hi := SpaceRunStart(s, |s|);
    if lo < hi {
      assert !IsSpace(s[lo]);
    }
  }

  /** `str.strip()` is `str.rstrip()` applied after `str.lstrip()`. */
  lemma StripIsTrimBoth(s: string)
    ensures Strip(s) == TrimRight(TrimLeft(s))
  {
    var lo := SpaceRunEnd(s, 0);
    var hi := SpaceRunStart(s, |s|);
    var left := s[lo..];
    assert TrimLeft(s) == left && |left| == |s| - lo;
    SuffixRunStart(s, lo);
    var e := SpaceRunStart(left, |left|);
    assert TrimRight(left) == left[..e];
    if lo < hi {
      PrefixOfSuffix(s, lo, hi - lo);
    }
  }

  lemma PrefixOfSuffix(s: string, lo: nat, k: nat)
    requires lo + k <= |s|
    ensures s[lo..][..k] == s[lo..lo + k]
  {
  }

  /** Right-trimming a suffix of `s` stops where right-trimming `s` stops. */
  lemma SuffixRunStart(s: string, lo: nat)
    requires lo <= |s|
    ensures var hi := SpaceRunStart(s, |s|);
            SpaceRunStart(s[lo..], |s| - lo) == if hi <= lo then 0 else hi - lo
  {
    var hi := SpaceRunStart(s, |s|);
    var t := s[lo..];
    var n := if hi <= lo then 0 else hi - lo;
    forall i | n <= i < |t|
      ensures IsSpace(t[i])
    {
      assert t[i] == s[lo + i];
    }
    if n > 0 {
      assert t[n - 1] == s[hi - 1];
    }
    SpaceRunStartUnique(t, |t|, n);
  }

  /** A text lacking one of the letters of `sub` does not contain `sub`. */
  lemma AbsentLetter(t: string, sub: string, k: nat)
    requires k < |sub| && sub[k] !in t
    ensures !Contains(t, sub)
  {
    forall i: nat | i <= |t|
      ensures !OccursAt(t, sub, i)
    {
      if i + |sub| <= |t| {
        assert t[i..i + |sub|][k] == t[i + k];
      }
    }
  }
}

=== FILE: transport.dfy ===
/**
  `udp_send`: fire-and-forget delivery. A send either goes out or fails; a
  failure is only logged, so a handler's sends are all attempted, in order,
  whatever happens to the earlier ones.
 */
module Transport {
  import opened Wire

  /** One send attempt and whether the network accepted it. */
  datatype Attempt = Attempt(send: Send, delivered: bool)

  /**
    Attempts every send of `sends` in order; `ok(i)` is the network's verdict
    on the i-th attempt.
   */
  function Transmit(sends: seq<Send>, ok: nat -> bool): (log: seq<Attempt>)
    ensures |log| == |sends|
    ensures forall i :: 0 <= i < |sends| ==> log[i] == Attempt(sends[i], ok(i))
    decreases |sends|
  {
    if |sends| == 0 then []
    else [Attempt(sends[0], ok(0))] + Transmit(sends[1..], (i: nat) => ok(i + 1))
  }

  /** The sends that reached the network, in order. */
  function Delivered(log: seq<Attempt>): (out: seq<Send>)
    ensures |out| <= |log|
    ensures forall s :: s in out ==> exists i :: 0 <= i < |log| && log[i].delivered && log[i].send == s
  {
    if |log| == 0 then []
    else if log[0].delivered then [log[0].send] + Delivered(log[1..])
    else Delivered(log[1..])
  }

  /** A failure at position `k` does not stop the attempts after it. */
  lemma FailureDoesNotAbort(sends: seq<Send>, ok: nat -> bool, k: nat)
    requires k < |sends| && !ok(k)
    ensures forall i :: k < i < |sends| ==> Transmit(sends, ok)[i].send == sends[i]
    ensures forall i :: k < i < |sends| && ok(i) ==> sends[i] in Delivered(Transmit(sends, ok))
  {
    var log := Transmit(sends, ok);
    forall i | k < i < |sends| && ok(i)
      ensures sends[i] in Delivered(log)
    {
      DeliveredContains(log, i);
    }
  }

  /** When every attempt succeeds, everything is delivered in the original order. */
  lemma {:induction false} AllDelivered(sends: seq<Send>, ok: nat -> bool)
    requires forall i :: 0 <= i < |sends| ==> ok(i)
    ensures Delivered(Transmit(sends, ok)) == sends
    decreases |sends|
  {
    if |sends| > 0 {
      var rest := Transmit(sends[1..], (i: nat) => ok(i + 1));
      assert Transmit(sends, ok) == [Attempt(sends[0], ok(0))] + rest;
      assert Transmit(sends, ok)[1..] == rest;
      AllDelivered(sends[1..], (i: nat) => ok(i + 1));
    }
  }

  lemma {:induction false} DeliveredContains(log: seq<Attempt>, i: nat)
    requires i < |log| && log[i].delivered
    ensures log[i].send in Delivered(log)
    decreases i
  {
    if i > 0 {
      DeliveredContains(log[1..], i - 1);
    }
  }
}

=== FILE: wire.dfy ===
/**
  The JSON messages exchanged over UDP, as typed records. Every field is an
  `Option`: `None` means the key is absent from the JSON object. Keys that no
  component reads are not represented.
 */
module Wire {
  import opened Wrappers
  import Telemetry

  /** A UDP destination. */
  datatype Endpoint = Endpoint(ip: string, port: nat)

  const RelayListenPort: nat := 5005
  /** The relay's second listener, for acknowledgments only. */
  const RelayAckPort: nat := RelayListenPort + 10

  const ResponderEndpoint := Endpoint("127.0.0.1", 5006)
  const HospitalEndpoint := Endpoint("127.0.0.1", 5007)
  const DashboardEndpoint := Endpoint("192.168.137.161", 5008)
  const ReporterEndpoint := Endpoint("192.168.137.161", 5009)

  /** Where the responder console sends its acknowledgment. */
  const RelayAckEndpoint := Endpoint("127.0.0.1", RelayAckPort)

  /** The four roadside readings (`rsu_environment` / `sensor_data`). */
  datatype EnvReading = EnvReading(
    temperature: Option<real>,
    humidity: Option<real>,
    airQuality: Option<real>,
    lightLevel: Option<real>)
  {
    /** An empty JSON object, which Python treats as false. */
    predicate IsEmpty()
    {
      temperature.None? && humidity.None? && airQuality.None? && lightLevel.None?
    }
  }

  const EmptyEnv := EnvReading(None, None, None, None)

  /** One wheel of a `tpms_data` object. */
  datatype WheelFields = WheelFields(pressurePsi: Option<real>, temperatureC: Option<real>, status: Option<string>)

  /** A `tpms_data` object, keyed by wheel name. */
  type TpmsWire = map<string, WheelFields>

  /** The JSON form of a generated snapshot. */
  function EncodeSnapshot(s: Telemetry.Snapshot): (t: TpmsWire)
    ensures t.Keys == set w | w in s :: Telemetry.WheelKey(w)
    ensures forall w :: w in s ==>
              && Telemetry.WheelKey(w) in t
              && t[Telemetry.WheelKey(w)] == WheelFields(Some(s[w].pressurePsi), Some(s[w].temperatureC), Some(Telemetry.StatusName(s[w].status)))
  {
    map w | w in s :: Telemetry.WheelKey(w) := WheelFields(Some(s[w].pressurePsi), Some(s[w].temperatureC), Some(Telemetry.StatusName(s[w].status)))
  }

  /**
    A datagram addressed to the relay or forwarded by it to the responder: an
    emergency report (with the relay's enrichment) or an acknowledgment, told
    apart by `kind` (the JSON `type` key).
   */
  datatype Packet = Packet(
    kind: Option<string>,
    vehicleId: Option<string>,
    issue: Option<string>,
    rawDescription: Option<string>,
    latitude: Option<real>,
    longitude: Option<real>,
    timestamp: Option<string>,
    hopTrace: Option<seq<string>>,
    rsuEnvironment: Option<EnvReading>,
    environmentStatus: Option<string>,
    tpmsData: Option<TpmsWire>,
    relayTimestamp: Option<string>,
    car2Id: Option<string>,
    car2Latitude: Option<real>,
    car2Longitude: Option<real>,
    accidentVehicle: Option<string>,
    etaMinutes: Option<real>,
    distanceKm: Option<real>,
    ackTimestamp: Option<string>)
  {
    predicate IsEmpty()
    {
      this == EmptyPacket
    }
  }

  const EmptyPacket := Packet(None, None, None, None, None, None, None, None, None, None,
                              None, None, None, None, None, None, None, None, None)

  /** The `maps_link` URL, determined by the two coordinates it quotes. */
  datatype MapsLink = MapsLink(latitude: Option<real>, longitude: Option<real>)

  /** The relay's message to the hospital console (`type` "EMERGENCY_ALERT"). */
  datatype HospitalAlert = HospitalAlert(
    kind: string,
    vehicleId: Option<string>,
    issue: Option<string>,
    rawDescription: Option<string>,
    latitude: Option<real>,
    longitude: Option<real>,
    timestamp: Option<string>,
    environmentStatus: string,
    mapsLink: MapsLink,
    relayTimestamp: Option<string>)

  /** A datagram addressed to the dashboard. */
  datatype DashPacket = DashPacket(
    kind: Option<string>,
    data: Option<Packet>,
    sensorData: Option<EnvReading>,
    tpmsData: Option<TpmsWire>,
    environmentStatus: Option<string>,
    timestamp: Option<string>,
    car2Id: Option<string>,
    car2Latitude: Option<real>,
    car2Longitude: Option<real>,
    etaMinutes: Option<real>,
    distanceKm: Option<real>,
    ackTimestamp: Option<string>)

  const EmptyDashPacket := DashPacket(None, None, None, None, None, None, None, None, None, None, None, None)

  /** A datagram addressed to the driver console's status listener. */
  datatype StatusPacket = StatusPacket(
    kind: Option<string>,
    helperId: Option<string>,
    etaMinutes: Option<real>,
    distanceKm: Option<real>,
    timestamp: Option<string>)

  datatype Message =
    | ToResponder(packet: Packet)
    | ToHospital(alert: HospitalAlert)
    | ToDashboard(dash: DashPacket)
    | ToReporter(status: StatusPacket)
    | ToRelay(packet: Packet)

  /** One outbound datagram. */
  datatype Send = Send(to: Endpoint, msg: Message)
}

=== FILE: wrappers.dfy ===
/** Optional values: a JSON key that may be absent from an object. */
module Wrappers {

  datatype Option<+T> = None | Some(value: T) {

    /** The value when present, `default` otherwise (Python's `dict.get(key, default)`). */
    function GetOr(default: T): (r: T)
      ensures Some? ==> r == value
      ensures None? ==> r == default
    {
      match this
      case Some(v) => v
      case None => default
    }
  }
}
